=== FILE: README.md ===
# DispatcherServlet auto-configuration and the web-endpoint operation contract

This project models two pieces of Spring Boot in Dafny.

**The DispatcherServlet auto-configuration.** Module `DispatcherServletAutoConfiguration`, in
`dispatcher_servlet_auto_configuration.dfy`, covers:
- the two conditions that decide whether the default `dispatcherServlet` bean and its
  `dispatcherServletRegistration` bean are created;
- the bean methods that build the servlet and its registration from `WebMvcProperties` and
  `ServerProperties`.

The bean factory is reduced to the three queries the conditions make, kept independent:
- the DispatcherServlet-typed bean names;
- the ServletRegistrationBean-typed bean names;
- the set of all bean names (`containsBean`).

**The actuator web-endpoint operation contract** that `AbstractWebEndpointIntegrationTests` pins down:
- how a request selects an endpoint operation by id, verb and selector count;
- how arguments are bound from path selectors, query parameters or a JSON body;
- how the returned value becomes a status, a content type and a body;
- how a CORS preflight is answered.

The modules are:
- `Common`: Option and Result.
- `Text`: join and split, plus Java's decimal `Integer.valueOf` and `Integer.toString`.
- `Operations`: parameters, arguments, return values and string rendering.
- `ParameterMapper`: the value-to-argument conversion.
- `TestEndpoints`: the endpoint classes the tests declare, as operation descriptors plus an
  invocation function.
- `Dispatcher`: routing, binding, invoking and translating one request.
- `WebEndpointIntegration`: one lemma per `@Test` method, each stating the exchange that test
  asserts. Where a test checks one instance of a general rule, a lemma states the rule for
  every input and the test's instance follows from it.

Calls on the mocked `EndpointDelegate` are not side effects here. They are returned as part of
the exchange, so a test's `verify(...)` is an equality on the recorded calls.

## Model

| member | source | states |
|---|---|---|
| DispatcherServletAutoConfiguration.DefaultDispatcherServletCondition | spring-boot-project/spring-boot-autoconfigure/src/main/java/org/springframework/boot/autoconfigure/web/servlet/DispatcherServletAutoConfiguration.java:169-184 | Matches exactly when "dispatcherServlet" is neither among the DispatcherServlet-typed names nor an existing bean name. Every NoMatch carries the empty message. |
| DispatcherServletAutoConfiguration.CheckDefaultDispatcherName | spring-boot-project/spring-boot-autoconfigure/src/main/java/org/springframework/boot/autoconfigure/web/servlet/DispatcherServletAutoConfiguration.java:203-216 | NoMatch exactly when a bean named "dispatcherServlet" exists but is not DispatcherServlet-typed. The message then reports "non dispatcher servlet" with that name under "DispatcherServlet Registration". |
| DispatcherServletAutoConfiguration.CheckServletRegistration | spring-boot-project/spring-boot-autoconfigure/src/main/java/org/springframework/boot/autoconfigure/web/servlet/DispatcherServletAutoConfiguration.java:218-238 | Matches exactly when "dispatcherServletRegistration" is neither a ServletRegistrationBean-typed name nor an existing bean name, whether or not the typed list is empty. |
| DispatcherServletAutoConfiguration.DispatcherServletRegistrationCondition | spring-boot-project/spring-boot-autoconfigure/src/main/java/org/springframework/boot/autoconfigure/web/servlet/DispatcherServletAutoConfiguration.java:192-201 | Matches exactly when both the name check and the registration check match. |
| DispatcherServletAutoConfiguration.RegistrationConditionShortCircuits | spring-boot-project/spring-boot-autoconfigure/src/main/java/org/springframework/boot/autoconfigure/web/servlet/DispatcherServletAutoConfiguration.java:196-200 | When the name check fails, the registration condition returns that very outcome. Changing the registration beans does not change it, so the registration check is not consulted. |
| DispatcherServletAutoConfiguration.RegistrationConditionMatches | spring-boot-project/spring-boot-autoconfigure/src/main/java/org/springframework/boot/autoconfigure/web/servlet/DispatcherServletAutoConfiguration.java:193-238 | The registration condition's match, as an iff over the three bean-factory inputs alone. |
| DispatcherServletAutoConfiguration.EmptinessIsIrrelevant | spring-boot-project/spring-boot-autoconfigure/src/main/java/org/springframework/boot/autoconfigure/web/servlet/DispatcherServletAutoConfiguration.java:180-183 | Emptying or refilling the typed-name lists with other names changes neither the default-servlet outcome nor the registration-check outcome. The `isEmpty` branches are redundant. |
| DispatcherServletAutoConfiguration.ConsistentFactory | spring-boot-project/spring-boot-autoconfigure/src/main/java/org/springframework/boot/autoconfigure/web/servlet/DispatcherServletAutoConfiguration.java:169-184 | If every typed name is a bean name, the default-servlet condition depends on `containsBean("dispatcherServlet")` alone. |
| DispatcherServletAutoConfiguration.DefaultServletPassesNameCheck | spring-boot-project/spring-boot-autoconfigure/src/main/java/org/springframework/boot/autoconfigure/web/servlet/DispatcherServletAutoConfiguration.java:169-216 | Whenever the default servlet is to be created, the registration's name check passes. The registration condition matches iff (the default servlet is to be created or already is a typed DispatcherServlet) and the registration check matches. |
| DispatcherServletAutoConfiguration.DispatcherServletBean | spring-boot-project/spring-boot-autoconfigure/src/main/java/org/springframework/boot/autoconfigure/web/servlet/DispatcherServletAutoConfiguration.java:98-108 | The servlet's dispatch-options, dispatch-trace and throw-if-no-handler flags equal the WebMvcProperties values. |
| DispatcherServletAutoConfiguration.MultipartResolverBean | spring-boot-project/spring-boot-autoconfigure/src/main/java/org/springframework/boot/autoconfigure/web/servlet/DispatcherServletAutoConfiguration.java:110-116 | The resolver is returned unchanged. |
| DispatcherServletAutoConfiguration.DispatcherServletRegistrationBean | spring-boot-project/spring-boot-autoconfigure/src/main/java/org/springframework/boot/autoconfigure/web/servlet/DispatcherServletAutoConfiguration.java:147-161 | The registration wraps the given servlet with the one servlet mapping from ServerProperties. Its name is always "dispatcherServlet" and its load-on-startup comes from WebMvcProperties. Its multipart configuration is the available one, or unset when none was available. |
| DispatcherServletAutoConfiguration.RegistrationOfDefaultServlet | spring-boot-project/spring-boot-autoconfigure/src/main/java/org/springframework/boot/autoconfigure/web/servlet/DispatcherServletAutoConfiguration.java:98-161 | For the registration of the auto-configured servlet, the registered servlet's flags come from the same properties, the name is "dispatcherServlet", and the multipart config is unset iff none was available. |
| Text.SplitJoin | spring-boot/src/test/java/org/springframework/boot/endpoint/web/AbstractWebEndpointIntegrationTests.java:98-105 | Splitting the separator-joined pieces gives the pieces back, when no piece holds the separator. |
| Text.JoinSplit | spring-boot/src/test/java/org/springframework/boot/endpoint/web/AbstractWebEndpointIntegrationTests.java:72-87 | Joining the pieces of a split gives the string back. |
| Text.ParseInteger | spring-boot/src/test/java/org/springframework/boot/endpoint/web/AbstractWebEndpointIntegrationTests.java:125-131 | Any Integer accepted lies in the 32-bit range. |
| Text.NonNumericIsRejected | spring-boot/src/test/java/org/springframework/boot/endpoint/web/AbstractWebEndpointIntegrationTests.java:125-131 | Text with a character that is neither a digit nor a leading sign is no Integer. |
| Text.IntegerRoundTrip | spring-boot/src/test/java/org/springframework/boot/endpoint/web/AbstractWebEndpointIntegrationTests.java:89-96 | Parsing the printed form of any 32-bit Integer gives that Integer back. |
| Text.JoinCommaSpace | spring-boot/src/test/java/org/springframework/boot/endpoint/web/AbstractWebEndpointIntegrationTests.java:116-123 | Joining with ", " equals joining with "," once every part after the first carries a leading blank. |
| Operations.Render | spring-boot/src/test/java/org/springframework/boot/endpoint/web/AbstractWebEndpointIntegrationTests.java:367-386 | The string-concatenation rendering of an argument: "null" for null, the string itself for a String, and text that parses back to the value for an Integer. A List renders as "[]" when empty. Otherwise it is bracketed, and for comma-free items the text between the brackets cut at every ',' gives the first item and then each later item after one blank, in order (List.toString's ", " separator). |
| Operations.ListItemsSplitBack | spring-boot/src/test/java/org/springframework/boot/endpoint/web/AbstractWebEndpointIntegrationTests.java:116-123 | Cutting ", "-joined comma-free items at every ',' gives the first item and then each later item after its blank, in order. |
| Operations.SelectorCountAppend | spring-boot/src/test/java/org/springframework/boot/endpoint/web/AbstractWebEndpointIntegrationTests.java:352-355 | The selector count of concatenated parameter lists is the sum of their counts. |
| ParameterMapper.MapParameter | spring-boot/src/test/java/org/springframework/boot/endpoint/web/AbstractWebEndpointIntegrationTests.java:89-131 | No value maps to null, and only no value does. A List parameter receives every value in order. A String parameter receives the values comma-joined in one string, which splits back into them when none holds a comma. A single Integer value converts exactly when it is Integer text. Several Integer values are comma-joined like String values, so they never convert; this is a modelling assumption (see Left out). Only Integer conversion can fail. |
| TestEndpoints.Declare | spring-boot/src/test/java/org/springframework/boot/endpoint/web/AbstractWebEndpointIntegrationTests.java:338-441 | The descriptor describes its own method. It is a write exactly for the three `@WriteOperation` methods. Exactly `readPart` and the three-argument query have one selector. |
| TestEndpoints.Invoke | spring-boot/src/test/java/org/springframework/boot/endpoint/web/AbstractWebEndpointIntegrationTests.java:338-441 | Reads make no delegate call. Each write makes exactly one, and `TestEndpoint.write` passes its two arguments on. |
| TestEndpoints.TestEndpointsAreUnambiguous | spring-boot/src/test/java/org/springframework/boot/endpoint/web/AbstractWebEndpointIntegrationTests.java:338-441 | No endpoint declares two operations of the same kind with the same selector count. |
| Dispatcher.PathSegments | spring-boot/src/test/java/org/springframework/boot/endpoint/web/AbstractWebEndpointIntegrationTests.java:72-87 | No segment holds a '/', and "/" followed by the '/'-joined segments is the path again. Dots are kept. |
| Dispatcher.PathOfSegments | spring-boot/src/test/java/org/springframework/boot/endpoint/web/AbstractWebEndpointIntegrationTests.java:72-87 | The path built from an id and selector values segments back into them. |
| Dispatcher.FindEndpoint | spring-boot/src/test/java/org/springframework/boot/endpoint/web/AbstractWebEndpointIntegrationTests.java:338-441 | A found endpoint is registered under the requested id. None is found iff no endpoint has that id. |
| Dispatcher.FindOperation | spring-boot/src/test/java/org/springframework/boot/endpoint/web/AbstractWebEndpointIntegrationTests.java:64-78 | A found operation belongs to the endpoint and has the requested kind and selector count. None is found iff no operation does. |
| Dispatcher.Resolve | spring-boot/src/test/java/org/springframework/boot/endpoint/web/AbstractWebEndpointIntegrationTests.java:64-78 | A resolved operation belongs to the endpoint named by the first segment, with the verb's kind and one selector per remaining segment. Resolution fails iff the path is empty, the id is unknown, or no operation fits. |
| Dispatcher.ResolveIsUnique | spring-boot/src/test/java/org/springframework/boot/endpoint/web/AbstractWebEndpointIntegrationTests.java:64-78 | On an unambiguous endpoint, any operation that fits the request is the one resolved. |
| Dispatcher.QueryValues | spring-boot/src/test/java/org/springframework/boot/endpoint/web/AbstractWebEndpointIntegrationTests.java:89-123 | A value is among those returned iff the query pairs it with the name. |
| Dispatcher.QueryValuesOfPair | spring-boot/src/test/java/org/springframework/boot/endpoint/web/AbstractWebEndpointIntegrationTests.java:89-105 | One query pair supplies its value exactly when its key is the parameter name. |
| Dispatcher.QueryValuesAppend | spring-boot/src/test/java/org/springframework/boot/endpoint/web/AbstractWebEndpointIntegrationTests.java:98-123 | The values of a query are those of its first part followed by those of the rest, so query order and repeated values are kept. |
| Dispatcher.NamedValues | spring-boot/src/test/java/org/springframework/boot/endpoint/web/AbstractWebEndpointIntegrationTests.java:89-172 | A query supplies exactly the values paired with the name. A body supplies at most one value: the field's value, present iff there is a body holding that field. |
| Dispatcher.SelectorsInOrder | spring-boot/src/test/java/org/springframework/boot/endpoint/web/AbstractWebEndpointIntegrationTests.java:72-87 | Selectors are consumed left to right. For every k, some selector parameter with exactly k selector parameters before it receives the k-th path segment, and a later selector parameter always has more selectors before it. |
| Dispatcher.NamedParameterValues | spring-boot/src/test/java/org/springframework/boot/endpoint/web/AbstractWebEndpointIntegrationTests.java:89-172 | A parameter without `@Selector` receives what the query or body supplies under its name. |
| Dispatcher.BindsFromCons | spring-boot/src/test/java/org/springframework/boot/endpoint/web/AbstractWebEndpointIntegrationTests.java:89-172 | The argument for one parameter, followed by arguments that bind every later parameter, binds that parameter and all later ones. |
| Dispatcher.FailsFromStep | spring-boot/src/test/java/org/springframework/boot/endpoint/web/AbstractWebEndpointIntegrationTests.java:125-131 | A binding failure from some parameter on happens at that parameter or at a later one, and at nothing else. |
| Dispatcher.BindFrom | spring-boot/src/test/java/org/springframework/boot/endpoint/web/AbstractWebEndpointIntegrationTests.java:89-172 | On success there is one argument for each parameter from the given one on, each converted from that parameter's values. It fails iff some such parameter's values do not convert. |
| Dispatcher.Bind | spring-boot/src/test/java/org/springframework/boot/endpoint/web/AbstractWebEndpointIntegrationTests.java:89-172 | On success there is one argument per parameter, each the conversion of that parameter's supplied values. Binding fails iff some parameter's values fail to convert. |
| Dispatcher.BindIsDetermined | spring-boot/src/test/java/org/springframework/boot/endpoint/web/AbstractWebEndpointIntegrationTests.java:89-172 | Arguments that every parameter's values convert to are the binding's result. |
| Dispatcher.Translate | spring-boot/src/test/java/org/springframework/boot/endpoint/web/AbstractWebEndpointIntegrationTests.java:133-198 | A ByteArrayResource is answered 200 as application/octet-stream carrying exactly its bytes. A singleton map is answered 200 as application/json carrying its entry. Null or void is 404 for a read and 204 for a write. Any non-200 status has no body and no content type, and no headers are added. |
| Dispatcher.AllowedMethods | spring-boot/src/test/java/org/springframework/boot/endpoint/web/AbstractWebEndpointIntegrationTests.java:200-211 | GET is listed iff the endpoint has a read operation and POST iff it has a write operation. Nothing else is listed, no method is listed twice, and when both are listed the order is GET, POST (the test expects "GET,POST"). |
| Dispatcher.Serve | spring-boot/src/test/java/org/springframework/boot/endpoint/web/AbstractWebEndpointIntegrationTests.java:89-198 | A routed request is answered 400 exactly when some parameter's values fail to convert. Only 200, 204, 400 and 404 are answered, and a non-200 response has no body. Delegate calls happen only for a write that bound. |
| Dispatcher.Dispatch | spring-boot/src/test/java/org/springframework/boot/endpoint/web/AbstractWebEndpointIntegrationTests.java:64-211 | Only 200, 204, 400 and 404 are answered. A non-200 response has no body and no content type. Delegate calls happen only on a POST that was not rejected with 400. |
| Dispatcher.MappingFailureIsBadRequest | spring-boot/src/test/java/org/springframework/boot/endpoint/web/AbstractWebEndpointIntegrationTests.java:125-131 | A routed request whose arguments fail to bind is answered 400 with no body, and nothing is invoked. |
| Dispatcher.PreflightReportsAllowedMethods | spring-boot/src/test/java/org/springframework/boot/endpoint/web/AbstractWebEndpointIntegrationTests.java:200-211 | A preflight on a registered endpoint is answered 200. It echoes the origin, lists the endpoint's allowed methods comma-joined, and invokes nothing. |
| Dispatcher.NullResultOutcome | spring-boot/src/test/java/org/springframework/boot/endpoint/web/AbstractWebEndpointIntegrationTests.java:144-188 | An operation returning null or nothing gives 404 for a GET and 204 with an empty body for a POST. The calls it made are reported. |
| Dispatcher.DispatchInvokes | spring-boot/src/test/java/org/springframework/boot/endpoint/web/AbstractWebEndpointIntegrationTests.java:133-172 | A routed and bound request is answered with the translation of what the operation returns for the bound arguments, together with the calls it made. |
| WebEndpointIntegration.ServedBy | spring-boot/src/test/java/org/springframework/boot/endpoint/web/AbstractWebEndpointIntegrationTests.java:64-198 | On a configuration of one unambiguous endpoint, a request that fits operation t and binds is answered with what t returns. |
| WebEndpointIntegration.BodyFieldMaps | spring-boot/src/test/java/org/springframework/boot/endpoint/web/AbstractWebEndpointIntegrationTests.java:153-172 | A String parameter bound from the JSON body receives the field of its name, or null when the field or the body is missing. |
| WebEndpointIntegration.ReadOperation | spring-boot/src/test/java/org/springframework/boot/endpoint/web/AbstractWebEndpointIntegrationTests.java:64-70 | GET /test is answered 200 with {"All": true}. |
| WebEndpointIntegration.ReadPartBinds | spring-boot/src/test/java/org/springframework/boot/endpoint/web/AbstractWebEndpointIntegrationTests.java:352-355 | readPart's selector receives its path segment unchanged, whatever the query holds. |
| WebEndpointIntegration.ReadOperationWithSelector | spring-boot/src/test/java/org/springframework/boot/endpoint/web/AbstractWebEndpointIntegrationTests.java:72-87 | GET on any path /test/<part> is answered 200 with {"part": <part>}. |
| WebEndpointIntegration.ReadOperationWithSelectorOne | spring-boot/src/test/java/org/springframework/boot/endpoint/web/AbstractWebEndpointIntegrationTests.java:72-78 | GET /test/one is answered 200 with {"part": "one"}. |
| WebEndpointIntegration.ReadOperationWithSelectorContainingADot | spring-boot/src/test/java/org/springframework/boot/endpoint/web/AbstractWebEndpointIntegrationTests.java:80-87 | GET /test/foo.bar is answered 200 with {"part": "foo.bar"}. |
| WebEndpointIntegration.WriteBindsBodyFields | spring-boot/src/test/java/org/springframework/boot/endpoint/web/AbstractWebEndpointIntegrationTests.java:357-360 | write(foo, bar) receives the body's "foo" and "bar" fields, each null when missing. |
| WebEndpointIntegration.WriteOperation | spring-boot/src/test/java/org/springframework/boot/endpoint/web/AbstractWebEndpointIntegrationTests.java:133-172 | POST /test with any body or none is answered 204 with no body, and the delegate receives write(foo, bar) with the body's fields or nulls. |
| WebEndpointIntegration.WriteOperationWithBothFields | spring-boot/src/test/java/org/springframework/boot/endpoint/web/AbstractWebEndpointIntegrationTests.java:133-142 | POST /test with {foo: one, bar: two} is answered 204, and the delegate receives write("one", "two"). |
| WebEndpointIntegration.NullIsPassedToTheOperationWhenArgumentIsNotFoundInPostRequestBody | spring-boot/src/test/java/org/springframework/boot/endpoint/web/AbstractWebEndpointIntegrationTests.java:153-162 | POST /test with {foo: one} is answered 204, and the delegate receives write("one", null). |
| WebEndpointIntegration.NullsArePassedToTheOperationWhenPostRequestHasNoBody | spring-boot/src/test/java/org/springframework/boot/endpoint/web/AbstractWebEndpointIntegrationTests.java:164-172 | POST /test without a body is answered 204, and the delegate receives write(null, null). |
| WebEndpointIntegration.TestEndpointAllowsGetAndPost | spring-boot/src/test/java/org/springframework/boot/endpoint/web/AbstractWebEndpointIntegrationTests.java:338-362 | The "test" id finds TestEndpoint, whose allowed methods read "GET,POST". |
| WebEndpointIntegration.ResponseToOptionsRequestIncludesCorsHeaders | spring-boot/src/test/java/org/springframework/boot/endpoint/web/AbstractWebEndpointIntegrationTests.java:200-211 | OPTIONS /test from any origin is answered 200, echoing the origin and allowing "GET,POST", with nothing invoked. |
| WebEndpointIntegration.QueryBinds | spring-boot/src/test/java/org/springframework/boot/endpoint/web/AbstractWebEndpointIntegrationTests.java:367-370 | query(one, two) receives the comma-joined values of "one" (null if none). Whenever "two" has exactly one value and that value is Integer text ("2", "02" or "+2" alike), `two` receives the Integer it spells. |
| WebEndpointIntegration.QueryOperation | spring-boot/src/test/java/org/springframework/boot/endpoint/web/AbstractWebEndpointIntegrationTests.java:89-105 | GET /query with a query that has exactly one "two" value, spelling an Integer, is answered 200 with {"query": "<joined one> <two>"}, where <two> is that Integer printed. |
| WebEndpointIntegration.ReadOperationWithSingleQueryParameters | spring-boot/src/test/java/org/springframework/boot/endpoint/web/AbstractWebEndpointIntegrationTests.java:89-96 | GET /query?one=1&two=2 is answered 200 with {"query": "1 2"}. |
| WebEndpointIntegration.ReadOperationWithSingleQueryParametersAndMultipleValues | spring-boot/src/test/java/org/springframework/boot/endpoint/web/AbstractWebEndpointIntegrationTests.java:98-105 | GET /query?one=1&one=1&two=2 is answered 200 with {"query": "1,1 2"}. |
| WebEndpointIntegration.QueryFailsToBind | spring-boot/src/test/java/org/springframework/boot/endpoint/web/AbstractWebEndpointIntegrationTests.java:125-131 | A single "two" value that is no Integer text makes the binding fail. |
| WebEndpointIntegration.ReadOperationWithMappingFailure | spring-boot/src/test/java/org/springframework/boot/endpoint/web/AbstractWebEndpointIntegrationTests.java:125-131 | GET /query with any single non-Integer "two" value is answered 400, and nothing is invoked. |
| WebEndpointIntegration.ReadOperationWithMappingFailureProducesBadRequestResponse | spring-boot/src/test/java/org/springframework/boot/endpoint/web/AbstractWebEndpointIntegrationTests.java:125-131 | GET /query?two=two is answered 400. |
| WebEndpointIntegration.QueryWithListBinds | spring-boot/src/test/java/org/springframework/boot/endpoint/web/AbstractWebEndpointIntegrationTests.java:384-386 | queryWithParameterList(one, two) receives the single "one" value and every "two" value, in order. |
| WebEndpointIntegration.QueryWithListOperation | spring-boot/src/test/java/org/springframework/boot/endpoint/web/AbstractWebEndpointIntegrationTests.java:107-123 | GET /query on QueryWithListEndpoint, with exactly one "one" value and at least one "two" value, is answered 200 with {"query": "<one> [<every two value, in order>]"}. |
| WebEndpointIntegration.ReadOperationWithListQueryParameterAndSingleValue | spring-boot/src/test/java/org/springframework/boot/endpoint/web/AbstractWebEndpointIntegrationTests.java:107-114 | GET /query?one=1&two=2 is answered 200 with {"query": "1 [2]"}. |
| WebEndpointIntegration.ReadOperationWithListQueryParameterAndMultipleValues | spring-boot/src/test/java/org/springframework/boot/endpoint/web/AbstractWebEndpointIntegrationTests.java:116-123 | GET /query?one=1&two=2&two=2 is answered 200 with {"query": "1 [2, 2]"}. |
| WebEndpointIntegration.ServedWithoutArguments | spring-boot/src/test/java/org/springframework/boot/endpoint/web/AbstractWebEndpointIntegrationTests.java:144-198 | A single parameterless operation is served on its endpoint's path with what it returns. |
| WebEndpointIntegration.WriteOperationWithVoidResponse | spring-boot/src/test/java/org/springframework/boot/endpoint/web/AbstractWebEndpointIntegrationTests.java:144-151 | POST /voidwrite is answered 204 with no body, and the delegate receives write(). |
| WebEndpointIntegration.NullResponseFromWriteOperationResultsInNoContentResponseStatus | spring-boot/src/test/java/org/springframework/boot/endpoint/web/AbstractWebEndpointIntegrationTests.java:182-188 | POST /nullwrite is answered 204 with no body. |
| WebEndpointIntegration.NullResponseFromReadOperationResultsInNotFoundResponseStatus | spring-boot/src/test/java/org/springframework/boot/endpoint/web/AbstractWebEndpointIntegrationTests.java:174-180 | GET /nullread is answered 404. |
| WebEndpointIntegration.ReadOperationWithResourceResponse | spring-boot/src/test/java/org/springframework/boot/endpoint/web/AbstractWebEndpointIntegrationTests.java:190-198 | GET /resource is answered 200 as application/octet-stream with exactly the bytes 0 to 9. |

## Left out

- `mainDispatcherServletPathProvider` (DispatcherServletAutoConfiguration.java:118-122): it returns a lambda that reads the servlet path from ServerProperties later. There is no decision in it.
- Annotation-driven conditions are not modelled, because they are evaluated by the framework rather than by this code:
  - the `@ConditionalOnClass`, `@ConditionalOnBean` and `@ConditionalOnMissingBean` annotations;
  - the `@Order` of the conditions.
  The eager-init and non-singleton flags of `getBeanNamesForType` are left out for the same reason.
- `ConditionMessage` is reduced to a tag, either empty or "found <description> <items>". Its text formatting belongs to a class that is not part of this model.
- The servlet mapping is taken as given in `ServerProperties`. Its derivation from the servlet path lives in ServerProperties, which is not part of this model.
- `DispatcherServletAutoConfiguration.DispatcherServletBean`: the servlet is modelled only by the three settings the method assigns.
- WebAnnotationEndpointDiscoverer, ConversionServiceOperationParameterMapper and DefaultConversionService are not part of this model. The tests fix the routing, binding and conversion rules stated here. Where the model decides a case no test covers, a line below names it as a modelling assumption.
- Media-type negotiation and `CachingConfiguration` are not modelled.
- Integer conversion accepts only decimal text with an optional sign and ASCII digits '0'-'9'. Three further forms are left out because no test exercises them: the hexadecimal and whitespace forms `DefaultConversionService` also accepts, and the non-ASCII decimal digits (such as Arabic-Indic digits) that `Integer.valueOf` reads through `Character.digit`.
- A single String value given to a List parameter is not split at commas; the list receives the supplied values. No test exercises comma splitting.
- ParameterMapper.MapParameter: two or more values for an Integer parameter are comma-joined and then converted, so they always fail with 400. This is a modelling assumption. No test sends them, and the conversion service that decides it is not part of this model.
- ParameterMapper.MapParameter: an empty value for an Integer parameter (`two=`) is not Integer text and fails with 400. This is a modelling assumption. No test sends it, and the conversion service may instead treat empty text as null.
- Dispatcher.PathSegments: a trailing slash yields an empty last segment, so `GET /test/` is routed to `readPart("")`. This is a modelling assumption. No test requests such a path, and the real path matching is done by the web framework, which is not part of this model.
- Dispatcher.Dispatch: a preflight is answered by the endpoint's allowed methods without checking the Access-Control-Request-Method header or a configured allowed-origin list. The test sends POST to an endpoint that allows it. The preflight looks only at the first path segment, so `OPTIONS /test/a/b` is answered 200 with "GET,POST" although no operation serves that path. This is a modelling assumption, and no test sends such a preflight.
- Dispatcher.Dispatch: a POST binds its named parameters from the JSON body only and a GET from the query only, so a POST's query string and a GET's body are ignored (`POST /test?foo=x` with no body calls write(null, null)). This is a modelling assumption. No test sends such a request, and the handler mapping that decides it is not part of this model.
- Dispatcher.Dispatch: with two registered endpoints sharing an id, the first one registered serves the request (`FindEndpoint`). On an endpoint with two operations of the same kind and selector count, the first declared one serves it (`FindOperation`). The real discoverer may reject such configurations instead. This is a modelling assumption; every endpoint the tests declare is unambiguous (`TestEndpointsAreUnambiguous`).
- Dispatcher.Dispatch: a request whose path names no endpoint, or whose verb and selector count fit no operation, is answered 404. No test covers that case, and the real dispatcher's answer comes from the web framework, which is not part of this model.
- A write operation that returns a non-null value is answered 200 as JSON under `Translate`. No endpoint in the tests does this.
- `QueryEndpoint.queryWithParameterList` (the three-argument operation with a selector) is declared and invoked, but no test requests it. Its outcome follows from the general lemmas only.
- The test harness is not modelled: WebTestClient, the embedded server and its port, the "/endpoints" base path, and application-context load and close (AbstractWebEndpointIntegrationTests.java:213-236).
- Mockito's `verify` becomes an equality on the delegate calls returned with the exchange. Call counts beyond that sequence are not modelled.

=== FILE: common.dfy ===
/** Option and Result: absence and failure as values. */
module Common {

  datatype Option<+T> = None | Some(value: T)

  datatype Result<+T, +E> = Success(value: T) | Failure(error: E)
}

=== FILE: dispatcher.dfy ===
/**
 * Serving a request against the registered endpoints: the path names the
 * endpoint and supplies the selector values; GET is served by a read
 * operation and POST by a write operation with as many selectors as there
 * are remaining path segments; the other parameters are bound by name from
 * the query (reads) or the JSON body (writes); the operation's return value
 * decides the status. A CORS preflight is answered without invoking anything.
 */
module Dispatcher {

  import opened Common
  import opened Text
  import opened Operations
  import opened ParameterMapper
  import opened TestEndpoints

  /** The request methods the endpoints answer; a preflight is OPTIONS with an Origin header. */
  datatype Method = Get | Post | Preflight(origin: string)

  /**
   * A request below the endpoints' base path: the path, the query parameters
   * in the order they appear, and the JSON body's fields (None: no body).
   */
  datatype Request = Request(
    verb: Method,
    path: string,
    query: seq<(string, string)>,
    body: Option<map<string, string>>)

  datatype Body = NoBody | JsonBody(key: string, value: JsonValue) | BytesBody(bytes: seq<int>)

  datatype Response = Response(
    status: int, contentType: Option<string>, headers: seq<(string, string)>, body: Body)

  /** The response, and the calls the invoked operation made on the delegate. */
  datatype Exchange = Exchange(response: Response, calls: seq<DelegateCall>)

  const OK: int := 200
  const NO_CONTENT: int := 204
  const BAD_REQUEST: int := 400
  const NOT_FOUND: int := 404

  const APPLICATION_JSON: string := "application/json"
  const APPLICATION_OCTET_STREAM: string := "application/octet-stream"

  /** The path's segments after its leading '/', cut at every '/' and nowhere else. */
  function PathSegments(path: string): (segments: seq<string>)
    ensures forall i :: 0 <= i < |segments| ==> '/' !in segments[i]
    ensures |path| > 0 && path[0] == '/' ==> "/" + Join(segments, "/") == path
  {
    if |path| > 0 && path[0] == '/' then
      JoinSplit(path[1..], '/');
      Split(path[1..], '/')
    else []
  }

  /** The path of an endpoint id and selector values. */
  lemma PathOfSegments(id: string, selectors: seq<string>)
    requires '/' !in id
    requires forall i :: 0 <= i < |selectors| ==> '/' !in selectors[i]
    ensures PathSegments("/" + Join([id] + selectors, "/")) == [id] + selectors
  {
    var p := "/" + Join([id] + selectors, "/");
    assert p[1..] == Join([id] + selectors, "/");
    SplitJoin([id] + selectors, '/');
  }

  /** The first registered endpoint with the given id. */
  function FindEndpoint(endpoints: seq<Endpoint>, id: string): (r: Option<Endpoint>)
    ensures r.Some? ==> r.value in endpoints && r.value.id == id
    ensures r.None? <==> forall e :: e in endpoints ==> e.id != id
  {
    if |endpoints| == 0 then None
    else if endpoints[0].id == id then Some(endpoints[0])
    else FindEndpoint(endpoints[1..], id)
  }

  predicate Serves(t: Target, kind: OperationKind, selectorCount: nat)
  {
    Declare(t).kind == kind && SelectorCount(Declare(t).parameters) == selectorCount
  }

  /** The first operation of the given kind with exactly the given number of selectors. */
  function FindOperation(operations: seq<Target>, kind: OperationKind, selectorCount: nat): (r: Option<Target>)
    ensures r.Some? ==> r.value in operations && Serves(r.value, kind, selectorCount)
    ensures r.None? <==> forall t :: t in operations ==> !Serves(t, kind, selectorCount)
  {
    if |operations| == 0 then None
    else if Serves(operations[0], kind, selectorCount) then Some(operations[0])
    else FindOperation(operations[1..], kind, selectorCount)
  }

  /** The operation a request of the given kind on the given path segments is routed to. */
  function Resolve(endpoints: seq<Endpoint>, kind: OperationKind, segments: seq<string>): (r: Option<Target>)
    ensures r.Some? ==>
      && |segments| > 0 && FindEndpoint(endpoints, segments[0]).Some?
      && r.value in FindEndpoint(endpoints, segments[0]).value.operations
      && Serves(r.value, kind, |segments| - 1)
    ensures r.None? <==>
      || |segments| == 0
      || FindEndpoint(endpoints, segments[0]).None?
      || (forall t :: t in FindEndpoint(endpoints, segments[0]).value.operations ==> !Serves(t, kind, |segments| - 1))
  {
    if |segments| == 0 then None
    else match FindEndpoint(endpoints, segments[0])
      case None => None
      case Some(e) => FindOperation(e.operations, kind, |segments| - 1)
  }

  /** On an unambiguous endpoint, any operation that fits the request is the one resolved. */
  lemma ResolveIsUnique(endpoints: seq<Endpoint>, kind: OperationKind, segments: seq<string>, t: Target)
    requires |segments| > 0 && FindEndpoint(endpoints, segments[0]).Some?
    requires Unambiguous(FindEndpoint(endpoints, segments[0]).value)
    requires t in FindEndpoint(endpoints, segments[0]).value.operations && Serves(t, kind, |segments| - 1)
    ensures Resolve(endpoints, kind, segments) == Some(t)
  {
    var ops := FindEndpoint(endpoints, segments[0]).value.operations;
    var r := Resolve(endpoints, kind, segments);
    assert r.Some?;
    var i :| 0 <= i < |ops| && ops[i] == r.value;
    var j :| 0 <= j < |ops| && ops[j] == t;
    if i != j {
      assert false;
    }
  }

  // ---------------------------------------------------------------------------
  // Binding arguments

  /** Where named parameters come from: the query for reads, the JSON body for writes. */
  datatype ParameterSource = QueryParameters(pairs: seq<(string, string)>) | BodyFields(fields: Option<map<string, string>>)

  /** Every value the query gives for the name, in query order. */
  function QueryValues(pairs: seq<(string, string)>, name: string): (values: seq<string>)
    ensures forall v :: v in values <==> (name, v) in pairs
  {
    if |pairs| == 0 then []
    else (if pairs[0].0 == name then [pairs[0].1] else []) + QueryValues(pairs[1..], name)
  }

  /** One query pair gives its value exactly when it carries the name. */
  lemma QueryValuesOfPair(key: string, value: string, name: string)
    ensures QueryValues([(key, value)], name) == if key == name then [value] else []
  {
    assert [(key, value)][1..] == [];
  }

  /** The values of a longer query are those of its first part followed by those of the rest, so order and repeats are kept. */
  lemma {:induction false} QueryValuesAppend(a: seq<(string, string)>, b: seq<(string, string)>, name: string)
    ensures QueryValues(a + b, name) == QueryValues(a, name) + QueryValues(b, name)
    decreases |a|
  {
    if |a| == 0 {
      assert a + b == b;
    } else {
      assert (a + b)[0] == a[0];
      assert (a + b)[1..] == a[1..] + b;
      QueryValuesAppend(a[1..], b, name);
    }
  }

  /** The values the source supplies for a named parameter: none when absent. */
  function NamedValues(source: ParameterSource, name: string): (values: seq<string>)
    // a query gives every value paired with the name
    ensures source.QueryParameters? ==> forall v :: v in values <==> (name, v) in source.pairs
    // a body gives the field's value, and nothing when the body or the field is missing
    ensures source.BodyFields? ==> |values| <= 1
    ensures source.BodyFields? ==>
      (|values| == 1 <==> source.fields.Some? && name in source.fields.value)
    ensures source.BodyFields? && |values| == 1 ==> values[0] == source.fields.value[name]
  {
    match source
    case QueryParameters(pairs) => QueryValues(pairs, name)
    case BodyFields(None) => []
    case BodyFields(Some(fields)) => if name in fields then [fields[name]] else []
  }

  /**
   * The raw values for parameter i: the next unused path segment for a
   * selector (selectors are consumed left to right), the named values otherwise.
   */
  function SuppliedValues(parameters: seq<Parameter>, selectors: seq<string>, source: ParameterSource, i: nat)
    : seq<string>
    requires SelectorCount(parameters) == |selectors| && i < |parameters|
  {
    if parameters[i].selector then
      SelectorCountPrefix(parameters, i);
      [selectors[SelectorCount(parameters[..i])]]
    else NamedValues(source, parameters[i].name)
  }

  /** Counting the selectors of a prefix one parameter further adds that parameter's selector, if any. */
  lemma SelectorCountStep(parameters: seq<Parameter>, n: nat)
    requires n < |parameters|
    ensures SelectorCount(parameters[..n + 1])
         == SelectorCount(parameters[..n]) + (if parameters[n].selector then 1 else 0)
  {
    assert parameters[..n + 1] == parameters[..n] + [parameters[n]];
    SelectorCountAppend(parameters[..n], [parameters[n]]);
    assert [parameters[n]][1..] == [];
  }

  /** Every selector counted in the first n parameters is the count before some selector parameter among them. */
  lemma {:induction false} SelectorIsTaken(parameters: seq<Parameter>, k: nat, n: nat)
    requires n <= |parameters|
    ensures k < SelectorCount(parameters[..n]) ==>
      exists i :: 0 <= i < n && parameters[i].selector && SelectorCount(parameters[..i]) == k
    decreases n
  {
    if n > 0 {
      SelectorIsTaken(parameters, k, n - 1);
      SelectorCountStep(parameters, n - 1);
      if k == SelectorCount(parameters[..n - 1]) && parameters[n - 1].selector {
        assert 0 <= n - 1 < n && parameters[n - 1].selector && SelectorCount(parameters[..n - 1]) == k;
      }
    }
  }

  /** Parameter i is the selector parameter that receives the k-th path segment. */
  predicate TakesSelector(parameters: seq<Parameter>, selectors: seq<string>, source: ParameterSource, k: nat, i: nat)
    requires SelectorCount(parameters) == |selectors| && k < |selectors|
  {
    && i < |parameters| && parameters[i].selector && SelectorCount(parameters[..i]) == k
    && SuppliedValues(parameters, selectors, source, i) == [selectors[k]]
  }

  /** Some selector parameter receives the k-th path segment. */
  predicate SelectorTaken(parameters: seq<Parameter>, selectors: seq<string>, source: ParameterSource, k: nat)
    requires SelectorCount(parameters) == |selectors| && k < |selectors|
  {
    exists i :: 0 <= i < |parameters| && TakesSelector(parameters, selectors, source, k, i)
  }

  /** The k-th path segment is the value of the k-th selector parameter. */
  lemma {:induction false} SelectorValue(parameters: seq<Parameter>, selectors: seq<string>, source: ParameterSource,
                                         k: nat)
    requires SelectorCount(parameters) == |selectors| && k < |selectors|
    ensures SelectorTaken(parameters, selectors, source, k)
  {
    assert parameters[..|parameters|] == parameters;
    SelectorIsTaken(parameters, k, |parameters|);
    var i :| 0 <= i < |parameters| && parameters[i].selector && SelectorCount(parameters[..i]) == k;
    assert TakesSelector(parameters, selectors, source, k, i);
  }

  /** A selector parameter counts among the selectors before any later parameter. */
  lemma {:induction false} SelectorsIncrease(parameters: seq<Parameter>, i: nat, j: nat)
    requires i < j < |parameters| && parameters[i].selector
    ensures SelectorCount(parameters[..i]) < SelectorCount(parameters[..j])
  {
    SelectorCountPrefix(parameters[..j], i);
    assert parameters[..j][..i] == parameters[..i];
  }

  /**
   * Selector values are consumed left to right: the k-th selector parameter
   * in declaration order receives exactly the k-th path segment, for every
   * segment, and a later selector parameter receives a later segment.
   */
  lemma {:induction false} SelectorsInOrder(parameters: seq<Parameter>, selectors: seq<string>, source: ParameterSource)
    requires SelectorCount(parameters) == |selectors|
    ensures forall k :: 0 <= k < |selectors| ==> SelectorTaken(parameters, selectors, source, k)
    ensures forall i, j :: 0 <= i < j < |parameters| && parameters[i].selector ==>
      SelectorCount(parameters[..i]) < SelectorCount(parameters[..j])
  {
    forall k | 0 <= k < |selectors|
      ensures SelectorTaken(parameters, selectors, source, k)
    {
      SelectorValue(parameters, selectors, source, k);
    }
    forall i, j | 0 <= i < j < |parameters| && parameters[i].selector
      ensures SelectorCount(parameters[..i]) < SelectorCount(parameters[..j])
    {
      SelectorsIncrease(parameters, i, j);
    }
  }

  /** A parameter without `@Selector` receives what the source supplies under its name. */
  lemma NamedParameterValues(parameters: seq<Parameter>, selectors: seq<string>, source: ParameterSource, i: nat)
    requires SelectorCount(parameters) == |selectors| && i < |parameters| && !parameters[i].selector
    ensures SuppliedValues(parameters, selectors, source, i) == NamedValues(source, parameters[i].name)
  {
  }

  /** Parameters i and after each convert, in order, to the arguments given. */
  predicate BindsFrom(parameters: seq<Parameter>, selectors: seq<string>, source: ParameterSource, i: nat,
                      args: seq<Argument>)
    requires SelectorCount(parameters) == |selectors| && i <= |parameters|
  {
    && |args| == |parameters| - i
    && forall j :: i <= j < |parameters| ==>
         MapParameter(SuppliedValues(parameters, selectors, source, j), parameters[j].ty) == Success(args[j - i])
  }

  /** Some parameter at i or after has values that do not convert to its declared type. */
  predicate FailsFrom(parameters: seq<Parameter>, selectors: seq<string>, source: ParameterSource, i: nat)
    requires SelectorCount(parameters) == |selectors| && i <= |parameters|
  {
    exists j :: i <= j < |parameters| &&
      MapParameter(SuppliedValues(parameters, selectors, source, j), parameters[j].ty).Failure?
  }

  /** Every parameter's supplied values convert, each to the argument at its position. */
  predicate BindsTo(parameters: seq<Parameter>, selectors: seq<string>, source: ParameterSource, args: seq<Argument>)
    requires SelectorCount(parameters) == |selectors|
  {
    BindsFrom(parameters, selectors, source, 0, args)
  }

  /** Some parameter's supplied values do not convert to its declared type. */
  predicate SomeValueFails(parameters: seq<Parameter>, selectors: seq<string>, source: ParameterSource)
    requires SelectorCount(parameters) == |selectors|
  {
    FailsFrom(parameters, selectors, source, 0)
  }

  /** The argument for parameter i, followed by those for the parameters after it, binds parameters i and after. */
  lemma {:induction false} BindsFromCons(parameters: seq<Parameter>, selectors: seq<string>, source: ParameterSource, i: nat,
                      a: Argument, args: seq<Argument>)
    requires SelectorCount(parameters) == |selectors| && i < |parameters|
    requires MapParameter(SuppliedValues(parameters, selectors, source, i), parameters[i].ty) == Success(a)
    requires BindsFrom(parameters, selectors, source, i + 1, args)
    ensures BindsFrom(parameters, selectors, source, i, [a] + args)
  {
    forall j | i <= j < |parameters|
      ensures MapParameter(SuppliedValues(parameters, selectors, source, j), parameters[j].ty)
           == Success(([a] + args)[j - i])
    {
      if j > i {
        assert ([a] + args)[j - i] == args[j - (i + 1)];
      }
    }
  }

  /** Whether some parameter at i or after fails is decided by parameter i and those after it. */
  lemma {:induction false} FailsFromStep(parameters: seq<Parameter>, selectors: seq<string>, source: ParameterSource, i: nat)
    requires SelectorCount(parameters) == |selectors| && i < |parameters|
    ensures FailsFrom(parameters, selectors, source, i) <==>
      MapParameter(SuppliedValues(parameters, selectors, source, i), parameters[i].ty).Failure?
      || FailsFrom(parameters, selectors, source, i + 1)
  {
    if FailsFrom(parameters, selectors, source, i) {
      var j :| i <= j < |parameters| &&
        MapParameter(SuppliedValues(parameters, selectors, source, j), parameters[j].ty).Failure?;
      if j > i {
        assert FailsFrom(parameters, selectors, source, i + 1);
      }
    }
  }

  /**
   * Maps the supplied values of parameters i and after to arguments, in
   * declaration order; the first value that does not convert fails the rest.
   */
  function BindFrom(parameters: seq<Parameter>, selectors: seq<string>, source: ParameterSource, i: nat)
    : (r: Result<seq<Argument>, MappingFailure>)
    requires SelectorCount(parameters) == |selectors| && i <= |parameters|
    ensures r.Success? ==> BindsFrom(parameters, selectors, source, i, r.value)
    ensures r.Failure? <==> FailsFrom(parameters, selectors, source, i)
    decreases |parameters| - i
  {
    if i == |parameters| then Success([])
    else
      FailsFromStep(parameters, selectors, source, i);
      match MapParameter(SuppliedValues(parameters, selectors, source, i), parameters[i].ty)
      case Failure(e) => Failure(e)
      case Success(a) =>
        match BindFrom(parameters, selectors, source, i + 1)
        case Failure(e) => Failure(e)
        case Success(args) => BindsFromCons(parameters, selectors, source, i, a, args); Success([a] + args)
  }

  /** Binds every parameter of an operation; the first value that does not convert fails the binding. */
  function Bind(parameters: seq<Parameter>, selectors: seq<string>, source: ParameterSource)
    : (r: Result<seq<Argument>, MappingFailure>)
    requires SelectorCount(parameters) == |selectors|
    ensures r.Success? ==> BindsTo(parameters, selectors, source, r.value)
    ensures r.Failure? <==> SomeValueFails(parameters, selectors, source)
  {
    BindFrom(parameters, selectors, source, 0)
  }

  // ---------------------------------------------------------------------------
  // Responses

  /**
   * The response for an operation's return value: null (or void) is 404 for
   * a read and 204 for a write; a resource is sent as octet-stream, any other
   * value as JSON.
   */
  function Translate(kind: OperationKind, result: ReturnValue): (r: Response)
    ensures r.status == OK <==> result.SingletonMap? || result.ByteArrayResource?
    ensures r.status != OK ==> r.body == NoBody && r.contentType == None
    ensures r.headers == []
    // a resource is sent as an octet stream of its bytes, a map as its JSON entry
    ensures result.ByteArrayResource? ==>
      r == Response(OK, Some(APPLICATION_OCTET_STREAM), [], BytesBody(result.bytes))
    ensures result.SingletonMap? ==> r == Response(OK, Some(APPLICATION_JSON), [], JsonBody(result.key, result.value))
    // no value is "not found" for a read and "no content" for a write
    ensures (result.Void? || result.NullValue?) ==> r.status == (if kind == Read then NOT_FOUND else NO_CONTENT)
  {
    match result
    case Void => if kind == Read then Response(NOT_FOUND, None, [], NoBody) else Response(NO_CONTENT, None, [], NoBody)
    case NullValue => if kind == Read then Response(NOT_FOUND, None, [], NoBody) else Response(NO_CONTENT, None, [], NoBody)
    case SingletonMap(key, value) => Response(OK, Some(APPLICATION_JSON), [], JsonBody(key, value))
    case ByteArrayResource(bytes) => Response(OK, Some(APPLICATION_OCTET_STREAM), [], BytesBody(bytes))
  }

  function HasKind(e: Endpoint, kind: OperationKind): bool
  {
    exists t :: t in e.operations && Declare(t).kind == kind
  }

  /** The methods a preflight reports for an endpoint: GET if it reads, POST if it writes. */
  function AllowedMethods(e: Endpoint): (methods: seq<string>)
    ensures "GET" in methods <==> HasKind(e, Read)
    ensures "POST" in methods <==> HasKind(e, Write)
    ensures forall m :: m in methods ==> m == "GET" || m == "POST"
    // GET, when listed, comes before POST, and neither is listed twice
    ensures |methods| <= 2
    ensures |methods| == 2 ==> methods == ["GET", "POST"]
  {
    (if HasKind(e, Read) then ["GET"] else []) + (if HasKind(e, Write) then ["POST"] else [])
  }

  function NotFound(): Exchange { Exchange(Response(NOT_FOUND, None, [], NoBody), []) }

  /**
   * Serving a request routed to operation t: a binding failure is 400 and
   * invokes nothing; otherwise t is invoked once with the bound arguments.
   */
  function Serve(t: Target, kind: OperationKind, selectors: seq<string>, source: ParameterSource): (x: Exchange)
    requires Serves(t, kind, |selectors|)
    ensures x.response.status in {OK, NO_CONTENT, BAD_REQUEST, NOT_FOUND}
    ensures x.response.status != OK ==> x.response.body == NoBody && x.response.contentType == None
    ensures x.calls != [] ==> kind == Write && x.response.status != BAD_REQUEST
    ensures x.response.status == BAD_REQUEST <==> SomeValueFails(Declare(t).parameters, selectors, source)
  {
    match Bind(Declare(t).parameters, selectors, source)
    case Failure(_) => Exchange(Response(BAD_REQUEST, None, [], NoBody), [])
    case Success(args) =>
      var inv := Invoke(t, args);
      Exchange(Translate(kind, inv.result), inv.calls)
  }

  /** Serving one request: route, then serve; a preflight only reports. */
  function Dispatch(endpoints: seq<Endpoint>, request: Request): (x: Exchange)
    ensures x.response.status in {OK, NO_CONTENT, BAD_REQUEST, NOT_FOUND}
    ensures x.response.status != OK ==> x.response.body == NoBody && x.response.contentType == None
    ensures x.calls != [] ==> request.verb == Post && x.response.status != BAD_REQUEST
  {
    var segments := PathSegments(request.path);
    match request.verb
    case Preflight(origin) =>
      if |segments| == 0 then NotFound()
      else (match FindEndpoint(endpoints, segments[0])
        case None => NotFound()
        case Some(e) =>
          Exchange(Response(OK, None,
                            [("Access-Control-Allow-Origin", origin),
                             ("Access-Control-Allow-Methods", Join(AllowedMethods(e), ","))],
                            NoBody), []))
    case _ =>
      var kind := if request.verb == Get then Read else Write;
      match Resolve(endpoints, kind, segments)
      case None => NotFound()
      case Some(t) =>
        Serve(t, kind, segments[1..], if kind == Read then QueryParameters(request.query) else BodyFields(request.body))
  }

  // ---------------------------------------------------------------------------
  // Outcomes that hold for every endpoint and request

  /** A value that does not convert is answered 400, and the operation is not invoked. */
  lemma MappingFailureIsBadRequest(endpoints: seq<Endpoint>, request: Request, t: Target)
    requires request.verb == Get || request.verb == Post
    requires Resolve(endpoints, if request.verb == Get then Read else Write, PathSegments(request.path)) == Some(t)
    requires Bind(Declare(t).parameters, PathSegments(request.path)[1..],
                  if request.verb == Get then QueryParameters(request.query) else BodyFields(request.body)).Failure?
    ensures Dispatch(endpoints, request) == Exchange(Response(BAD_REQUEST, None, [], NoBody), [])
  {
  }

  /**
   * A preflight on a registered endpoint's path is answered 200, echoing the
   * origin and listing the endpoint's methods, without invoking anything.
   */
  lemma PreflightReportsAllowedMethods(endpoints: seq<Endpoint>, request: Request, e: Endpoint)
    requires request.verb.Preflight?
    requires |PathSegments(request.path)| > 0 && FindEndpoint(endpoints, PathSegments(request.path)[0]) == Some(e)
    ensures Dispatch(endpoints, request)
         == Exchange(Response(OK, None, [("Access-Control-Allow-Origin", request.verb.origin),
                                         ("Access-Control-Allow-Methods", Join(AllowedMethods(e), ","))],
                              NoBody), [])
  {
  }

  /**
   * Once bound, the operation is invoked exactly once with the bound
   * arguments: a read returning null is 404, a write returning null or
   * nothing is 204 with an empty body, and the calls it made are reported.
   */
  lemma NullResultOutcome(endpoints: seq<Endpoint>, request: Request, t: Target, args: seq<Argument>)
    requires request.verb == Get || request.verb == Post
    requires Resolve(endpoints, if request.verb == Get then Read else Write, PathSegments(request.path)) == Some(t)
    requires Bind(Declare(t).parameters, PathSegments(request.path)[1..],
                  if request.verb == Get then QueryParameters(request.query) else BodyFields(request.body))
             == Success(args)
    requires Invoke(t, args).result.Void? || Invoke(t, args).result.NullValue?
    ensures request.verb == Get ==> Dispatch(endpoints, request).response.status == NOT_FOUND
    ensures request.verb == Post ==> Dispatch(endpoints, request).response == Response(NO_CONTENT, None, [], NoBody)
    ensures Dispatch(endpoints, request).calls == Invoke(t, args).calls
  {
  }

  /** Bind has one possible success: the arguments each parameter's values map to. */
  lemma {:induction false} BindIsDetermined(parameters: seq<Parameter>, selectors: seq<string>, source: ParameterSource,
                         args: seq<Argument>)
    requires SelectorCount(parameters) == |selectors| && BindsTo(parameters, selectors, source, args)
    ensures Bind(parameters, selectors, source) == Success(args)
  {
    var r := Bind(parameters, selectors, source);
    assert r.Success?;
    forall i | 0 <= i < |parameters|
      ensures r.value[i] == args[i]
    {
      assert MapParameter(SuppliedValues(parameters, selectors, source, i), parameters[i].ty) == Success(args[i - 0]);
      assert MapParameter(SuppliedValues(parameters, selectors, source, i), parameters[i].ty) == Success(r.value[i - 0]);
    }
    assert r.value == args;
  }

  /** A routed and bound request is answered with the translation of what the operation returns. */
  lemma DispatchInvokes(endpoints: seq<Endpoint>, request: Request, t: Target, args: seq<Argument>)
    requires request.verb == Get || request.verb == Post
    requires Resolve(endpoints, if request.verb == Get then Read else Write, PathSegments(request.path)) == Some(t)
    requires Bind(Declare(t).parameters, PathSegments(request.path)[1..],
                  if request.verb == Get then QueryParameters(request.query) else BodyFields(request.body))
             == Success(args)
    ensures Dispatch(endpoints, request)
         == Exchange(Translate(if request.verb == Get then Read else Write, Invoke(t, args).result),
                     Invoke(t, args).calls)
  {
  }
}

=== FILE: dispatcher_servlet_auto_configuration.dfy ===
/**
 * The auto-configuration of Spring MVC's DispatcherServlet: the two conditions
 * that decide whether the default servlet bean and its registration bean are
 * created, and the bean methods that build them from configuration properties.
 *
 * The bean factory is reduced to the three queries the conditions make of it:
 * the names of the beans of type DispatcherServlet, the names of the beans of
 * type ServletRegistrationBean, and the set of all bean names (`containsBean`).
 * They are kept independent, as the code queries them separately.
 */
module DispatcherServletAutoConfiguration {

  import opened Common

  /** Bean name of the DispatcherServlet mapped to the root URL "/". */
  const DEFAULT_DISPATCHER_SERVLET_BEAN_NAME: string := "dispatcherServlet"

  /** Bean name of the ServletRegistrationBean for that DispatcherServlet. */
  const DEFAULT_DISPATCHER_SERVLET_REGISTRATION_BEAN_NAME: string := "dispatcherServletRegistration"

  /** What the conditions read from the bean factory. */
  datatype BeanFactory = BeanFactory(
    dispatcherServletNames: seq<string>,  // getBeanNamesForType(DispatcherServlet.class, false, false)
    registrationBeanNames: seq<string>,   // getBeanNamesForType(ServletRegistrationBean.class, false, false)
    beanNames: set<string>)               // the names containsBean answers true for
  {
    predicate ContainsBean(name: string) { name in beanNames }
  }

  /** A condition message, kept as a tag: empty, or "found <description> <items>". */
  datatype ConditionMessage =
    | EmptyMessage
    | Found(condition: string, description: string, items: seq<string>)

  /** Every match produced in this file carries the empty message, so a match has no payload. */
  datatype ConditionOutcome = Match | NoMatch(message: ConditionMessage)
  {
    predicate IsMatch() { Match? }
  }

  /**
   * DefaultDispatcherServletCondition.getMatchOutcome, branch for branch,
   * including the `isEmpty` test whose two outcomes coincide.
   */
  function DefaultDispatcherServletCondition(factory: BeanFactory): (r: ConditionOutcome)
    ensures r.IsMatch() <==>
      DEFAULT_DISPATCHER_SERVLET_BEAN_NAME !in factory.dispatcherServletNames &&
      !factory.ContainsBean(DEFAULT_DISPATCHER_SERVLET_BEAN_NAME)
    ensures r.NoMatch? ==> r.message == EmptyMessage
  {
    var dispatchServletBeans := factory.dispatcherServletNames;
    if DEFAULT_DISPATCHER_SERVLET_BEAN_NAME in dispatchServletBeans then NoMatch(EmptyMessage)
    else if factory.ContainsBean(DEFAULT_DISPATCHER_SERVLET_BEAN_NAME) then NoMatch(EmptyMessage)
    else if |dispatchServletBeans| == 0 then Match
    else Match
  }

  /** The name check of the registration condition. */
  function CheckDefaultDispatcherName(factory: BeanFactory): (r: ConditionOutcome)
    ensures r.NoMatch? <==>
      factory.ContainsBean(DEFAULT_DISPATCHER_SERVLET_BEAN_NAME) &&
      DEFAULT_DISPATCHER_SERVLET_BEAN_NAME !in factory.dispatcherServletNames
    ensures r.NoMatch? ==>
      r.message == Found("DispatcherServlet Registration", "non dispatcher servlet",
                         [DEFAULT_DISPATCHER_SERVLET_BEAN_NAME])
  {
    var servlets := factory.dispatcherServletNames;
    var containsDispatcherBean := factory.ContainsBean(DEFAULT_DISPATCHER_SERVLET_BEAN_NAME);
    if containsDispatcherBean && DEFAULT_DISPATCHER_SERVLET_BEAN_NAME !in servlets then
      NoMatch(Found(StartMessage(), "non dispatcher servlet", [DEFAULT_DISPATCHER_SERVLET_BEAN_NAME]))
    else
      Match
  }

  /** The registration check: nested `isEmpty` test first, then the two name tests. */
  function CheckServletRegistration(factory: BeanFactory): (r: ConditionOutcome)
    ensures r.IsMatch() <==>
      DEFAULT_DISPATCHER_SERVLET_REGISTRATION_BEAN_NAME !in factory.registrationBeanNames &&
      !factory.ContainsBean(DEFAULT_DISPATCHER_SERVLET_REGISTRATION_BEAN_NAME)
    ensures r.NoMatch? ==> r.message == EmptyMessage
  {
    var registrations := factory.registrationBeanNames;
    var containsDispatcherRegistrationBean :=
      factory.ContainsBean(DEFAULT_DISPATCHER_SERVLET_REGISTRATION_BEAN_NAME);
    if |registrations| == 0 then
      if containsDispatcherRegistrationBean then NoMatch(EmptyMessage) else Match
    else if DEFAULT_DISPATCHER_SERVLET_REGISTRATION_BEAN_NAME in registrations then NoMatch(EmptyMessage)
    else if containsDispatcherRegistrationBean then NoMatch(EmptyMessage)
    else Match
  }

  /** DispatcherServletRegistrationCondition.getMatchOutcome: the name check guards the registration check. */
  function DispatcherServletRegistrationCondition(factory: BeanFactory): (r: ConditionOutcome)
    ensures r.IsMatch() <==>
      CheckDefaultDispatcherName(factory).IsMatch() && CheckServletRegistration(factory).IsMatch()
  {
    var outcome := CheckDefaultDispatcherName(factory);
    if !outcome.IsMatch() then outcome
    else CheckServletRegistration(factory)
  }

  function StartMessage(): string { "DispatcherServlet Registration" }

  /**
   * When the name check fails, its outcome (with its "non dispatcher servlet"
   * message) is the registration condition's outcome, whatever the
   * registration beans are: the registration check is never consulted.
   */
  lemma RegistrationConditionShortCircuits(factory: BeanFactory, registrationBeanNames: seq<string>)
    requires CheckDefaultDispatcherName(factory).NoMatch?
    ensures DispatcherServletRegistrationCondition(factory) == CheckDefaultDispatcherName(factory)
    ensures DispatcherServletRegistrationCondition(factory.(registrationBeanNames := registrationBeanNames))
         == DispatcherServletRegistrationCondition(factory)
  {
  }

  /** The registration condition in terms of the three inputs alone. */
  lemma RegistrationConditionMatches(factory: BeanFactory)
    ensures DispatcherServletRegistrationCondition(factory).IsMatch() <==>
      (!factory.ContainsBean(DEFAULT_DISPATCHER_SERVLET_BEAN_NAME) ||
       DEFAULT_DISPATCHER_SERVLET_BEAN_NAME in factory.dispatcherServletNames) &&
      DEFAULT_DISPATCHER_SERVLET_REGISTRATION_BEAN_NAME !in factory.registrationBeanNames &&
      !factory.ContainsBean(DEFAULT_DISPATCHER_SERVLET_REGISTRATION_BEAN_NAME)
  {
  }

  /**
   * The `isEmpty` branches carry no information: emptying or filling the typed
   * lists with names other than the default ones leaves both outcomes unchanged.
   */
  lemma EmptinessIsIrrelevant(factory: BeanFactory, servlets: seq<string>, registrations: seq<string>)
    requires DEFAULT_DISPATCHER_SERVLET_BEAN_NAME !in servlets
    requires DEFAULT_DISPATCHER_SERVLET_BEAN_NAME !in factory.dispatcherServletNames
    requires DEFAULT_DISPATCHER_SERVLET_REGISTRATION_BEAN_NAME !in registrations
    requires DEFAULT_DISPATCHER_SERVLET_REGISTRATION_BEAN_NAME !in factory.registrationBeanNames
    ensures DefaultDispatcherServletCondition(factory.(dispatcherServletNames := servlets))
         == DefaultDispatcherServletCondition(factory)
    ensures CheckServletRegistration(factory.(registrationBeanNames := registrations))
         == CheckServletRegistration(factory)
  {
  }

  /**
   * In a consistent bean factory (every DispatcherServlet-typed name is a bean
   * name) the default-servlet condition depends on containsBean alone.
   */
  lemma ConsistentFactory(factory: BeanFactory)
    requires forall n :: n in factory.dispatcherServletNames ==> n in factory.beanNames
    ensures DefaultDispatcherServletCondition(factory).IsMatch() <==>
      !factory.ContainsBean(DEFAULT_DISPATCHER_SERVLET_BEAN_NAME)
  {
  }

  /**
   * Whenever the default servlet is to be created, the registration
   * condition's name check passes: it only ever objects to a bean that took
   * the name "dispatcherServlet" without being a DispatcherServlet.
   */
  lemma DefaultServletPassesNameCheck(factory: BeanFactory)
    ensures DefaultDispatcherServletCondition(factory).IsMatch() ==>
      CheckDefaultDispatcherName(factory).IsMatch()
    ensures DispatcherServletRegistrationCondition(factory).IsMatch() <==>
      (DefaultDispatcherServletCondition(factory).IsMatch() ||
       DEFAULT_DISPATCHER_SERVLET_BEAN_NAME in factory.dispatcherServletNames) &&
      CheckServletRegistration(factory).IsMatch()
  {
  }

  // ---------------------------------------------------------------------------
  // Bean construction

  /** The WebMvcProperties the beans read. */
  datatype WebMvcProperties = WebMvcProperties(
    dispatchOptionsRequest: bool,
    dispatchTraceRequest: bool,
    throwExceptionIfNoHandlerFound: bool,
    servlet: WebMvcServlet)

  datatype WebMvcServlet = WebMvcServlet(loadOnStartup: int)

  /** The ServerProperties the registration reads: the servlet mapping. */
  datatype ServerProperties = ServerProperties(servlet: ServerServlet)

  datatype ServerServlet = ServerServlet(servletMapping: string)

  /** The three DispatcherServlet settings the auto-configuration assigns. */
  datatype DispatcherServlet = DispatcherServlet(
    dispatchOptionsRequest: bool,
    dispatchTraceRequest: bool,
    throwExceptionIfNoHandlerFound: bool)

  /** A multipart configuration, carried unchanged. */
  datatype MultipartConfigElement = MultipartConfigElement(
    location: string, maxFileSize: int, maxRequestSize: int, fileSizeThreshold: int)

  datatype ServletRegistrationBean = ServletRegistrationBean(
    servlet: DispatcherServlet,
    urlMappings: seq<string>,
    name: string,
    loadOnStartup: int,
    multipartConfig: Option<MultipartConfigElement>)

  /**
   * DispatcherServletConfiguration.dispatcherServlet: a fresh servlet whose
   * three settings are set, one setter at a time, from the properties.
   */
  function DispatcherServletBean(webMvc: WebMvcProperties): (s: DispatcherServlet)
    ensures s.dispatchOptionsRequest == webMvc.dispatchOptionsRequest
    ensures s.dispatchTraceRequest == webMvc.dispatchTraceRequest
    ensures s.throwExceptionIfNoHandlerFound == webMvc.throwExceptionIfNoHandlerFound
  {
    // The constructor's defaults are all overwritten below.
    var s := DispatcherServlet(false, false, false);
    var s := s.(dispatchOptionsRequest := webMvc.dispatchOptionsRequest);
    var s := s.(dispatchTraceRequest := webMvc.dispatchTraceRequest);
    s.(throwExceptionIfNoHandlerFound := webMvc.throwExceptionIfNoHandlerFound)
  }

  /**
   * DispatcherServletConfiguration.multipartResolver: re-exposes a resolver the
   * user defined under another name, unchanged.
   */
  function MultipartResolverBean<R>(resolver: R): (r: R)
    ensures r == resolver
  {
    resolver
  }

  /**
   * DispatcherServletRegistrationConfiguration.dispatcherServletRegistration.
   * `multipartConfig` is what the ObjectProvider had available (None for null).
   */
  function DispatcherServletRegistrationBean(
    server: ServerProperties, webMvc: WebMvcProperties,
    multipartConfig: Option<MultipartConfigElement>, dispatcherServlet: DispatcherServlet
  ): (reg: ServletRegistrationBean)
    ensures reg.servlet == dispatcherServlet
    ensures reg.urlMappings == [server.servlet.servletMapping]
    ensures reg.name == DEFAULT_DISPATCHER_SERVLET_BEAN_NAME
    ensures reg.loadOnStartup == webMvc.servlet.loadOnStartup
    ensures reg.multipartConfig == multipartConfig
  {
    // The constructor sets the servlet and its one URL mapping; the name (unset
    // here), load-on-startup (-1) and multipart configuration (none) are then
    // replaced by the setters below.
    var reg := ServletRegistrationBean(dispatcherServlet, [server.servlet.servletMapping], "", -1, None);
    var reg := reg.(name := DEFAULT_DISPATCHER_SERVLET_BEAN_NAME);
    var reg := reg.(loadOnStartup := webMvc.servlet.loadOnStartup);
    if multipartConfig.Some? then reg.(multipartConfig := multipartConfig) else reg
  }

  /**
   * The registration built around the auto-configured servlet: the servlet's
   * settings come from the same WebMvcProperties as the registration's
   * load-on-startup, and its multipart configuration stays unset exactly when
   * none was available.
   */
  lemma RegistrationOfDefaultServlet(server: ServerProperties, webMvc: WebMvcProperties,
                                     multipartConfig: Option<MultipartConfigElement>)
    ensures var reg := DispatcherServletRegistrationBean(server, webMvc, multipartConfig,
                                                         DispatcherServletBean(webMvc));
      && reg.servlet.dispatchOptionsRequest == webMvc.dispatchOptionsRequest
      && reg.servlet.dispatchTraceRequest == webMvc.dispatchTraceRequest
      && reg.servlet.throwExceptionIfNoHandlerFound == webMvc.throwExceptionIfNoHandlerFound
      && reg.name == DEFAULT_DISPATCHER_SERVLET_BEAN_NAME
      && (reg.multipartConfig.None? <==> multipartConfig.None?)
  {
  }
}

=== FILE: integration_contract.dfy ===
/**
 * The request-to-outcome contract the web-endpoint integration tests assert,
 * one lemma per test, each against the configuration that test loads;
 * where a test checks one instance of a general rule, the lemma states the
 * rule for every input and the test's instance follows from it.
 */
module WebEndpointIntegration {

  import opened Common
  import opened Text
  import opened Operations
  import opened ParameterMapper
  import opened TestEndpoints
  import opened Dispatcher

  function GetRequest(path: string, query: seq<(string, string)>): Request
  {
    Request(Get, path, query, None)
  }

  function PostRequest(path: string, body: Option<map<string, string>>): Request
  {
    Request(Post, path, [], body)
  }

  /** A 200 response carrying a singleton JSON map. */
  function JsonOk(key: string, value: JsonValue): Response
  {
    Response(OK, Some(APPLICATION_JSON), [], JsonBody(key, value))
  }

  /** 204 with no body. */
  function NoContent(): Response
  {
    Response(NO_CONTENT, None, [], NoBody)
  }

  /** The argument a JSON body field gives a String parameter: null when the body or the field is missing. */
  function BodyArgument(body: Option<map<string, string>>, name: string): Argument
  {
    if body.Some? && name in body.value then StringValue(body.value[name]) else Null
  }

  /** A String parameter bound from a JSON body field receives the field, or null. */
  lemma BodyFieldMaps(body: Option<map<string, string>>, name: string)
    ensures MapParameter(NamedValues(BodyFields(body), name), StringType) == Success(BodyArgument(body, name))
  {
  }

  /** The kind of operation a GET or POST request asks for. */
  function RequestedKind(request: Request): OperationKind
  {
    if request.verb == Get then Read else Write
  }

  /** Where the arguments of a GET or POST request come from. */
  function RequestSource(request: Request): ParameterSource
  {
    if request.verb == Get then QueryParameters(request.query) else BodyFields(request.body)
  }

  /** The exchange an operation's invocation with the given arguments produces. */
  function Outcome(kind: OperationKind, t: Target, args: seq<Argument>): Exchange
    requires |args| == |Declare(t).parameters|
  {
    Exchange(Translate(kind, Invoke(t, args).result), Invoke(t, args).calls)
  }

  /**
   * On a configuration of one unambiguous endpoint, a request whose path names
   * the endpoint and whose verb and selectors fit operation t, with arguments
   * that bind, is answered with what t returns.
   */
  lemma ServedBy(e: Endpoint, request: Request, t: Target, selectors: seq<string>, args: seq<Argument>,
                  expected: Exchange)
    requires request.verb == Get || request.verb == Post
    requires Unambiguous(e) && t in e.operations
    requires PathSegments(request.path) == [e.id] + selectors
    requires Serves(t, RequestedKind(request), |selectors|)
    requires Bind(Declare(t).parameters, selectors, RequestSource(request)) == Success(args)
    requires Outcome(RequestedKind(request), t, args) == expected
    ensures Dispatch([e], request) == expected
  {
    assert PathSegments(request.path)[1..] == selectors;
    ResolveIsUnique([e], RequestedKind(request), PathSegments(request.path), t);
    DispatchInvokes([e], request, t, args);
  }

  /** "/id" is the endpoint id alone. */
  lemma EndpointPath(path: string, id: string)
    requires '/' !in id && path == "/" + id
    ensures PathSegments(path) == [id]
  {
    PathOfSegments(id, []);
  }

  /** "/test/part" is the test endpoint's id and the selector value, kept whole. */
  lemma TestPartPath(path: string, part: string)
    requires '/' !in part && path == "/test/" + part
    ensures PathSegments(path) == ["test"] + [part]
  {
    PathOfSegments("test", [part]);
    assert Join(["test"] + [part], "/") == "test" + "/" + part;
    assert "/" + ("test" + "/" + part) == "/test/" + part;
  }

  // The paths the tests request, one lemma each so that every proof below
  // meets a path only through its segments.

  lemma TestPath() ensures PathSegments("/test") == ["test"] { EndpointPath("/test", "test"); }
  lemma QueryPath() ensures PathSegments("/query") == ["query"] { EndpointPath("/query", "query"); }
  lemma VoidWritePath() ensures PathSegments("/voidwrite") == ["voidwrite"] { EndpointPath("/voidwrite", "voidwrite"); }
  lemma NullWritePath() ensures PathSegments("/nullwrite") == ["nullwrite"] { EndpointPath("/nullwrite", "nullwrite"); }
  lemma NullReadPath() ensures PathSegments("/nullread") == ["nullread"] { EndpointPath("/nullread", "nullread"); }
  lemma ResourcePath() ensures PathSegments("/resource") == ["resource"] { EndpointPath("/resource", "resource"); }

  // ---------------------------------------------------------------------------
  // TestEndpoint

  lemma ReadAllOutcome()
    ensures Outcome(Read, TestReadAll, []) == Exchange(JsonOk("All", JsonBool(true)), [])
  {
  }

  /** GET /test invokes readAll: 200 with {"All": true}. */
  lemma ReadOperation()
    ensures Dispatch(TestEndpointConfiguration, GetRequest("/test", []))
         == Exchange(JsonOk("All", JsonBool(true)), [])
  {
    TestPath();
    TestEndpointsAreUnambiguous();
    ReadAllOutcome();
    ServedBy(TestEndpoint, GetRequest("/test", []), TestReadAll, [], [], Exchange(JsonOk("All", JsonBool(true)), []));
  }

  /** A selector parameter receives its path segment as it is, whatever the query says. */
  lemma ReadPartBinds(part: string, query: seq<(string, string)>)
    ensures Bind(Declare(TestReadPart).parameters, [part], QueryParameters(query)) == Success([StringValue(part)])
  {
    var params := Declare(TestReadPart).parameters;
    assert params[..0] == [];
    assert SuppliedValues(params, [part], QueryParameters(query), 0) == [part];
    BindIsDetermined(params, [part], QueryParameters(query), [StringValue(part)]);
  }

  lemma ReadPartOutcome(part: string)
    ensures Outcome(Read, TestReadPart, [StringValue(part)]) == Exchange(JsonOk("part", JsonString(part)), [])
  {
  }

  /**
   * GET /test/<part> invokes readPart with the segment as it is, dots
   * included: 200 with {"part": <part>}.
   */
  lemma ReadOperationWithSelector(path: string, part: string)
    requires PathSegments(path) == ["test"] + [part]
    ensures Dispatch(TestEndpointConfiguration, GetRequest(path, []))
         == Exchange(JsonOk("part", JsonString(part)), [])
  {
    ReadPartBinds(part, []);
    TestEndpointsAreUnambiguous();
    ReadPartOutcome(part);
    ServedBy(TestEndpoint, GetRequest(path, []), TestReadPart, [part], [StringValue(part)],
             Exchange(JsonOk("part", JsonString(part)), []));
  }

  lemma ReadOperationWithSelectorOne()
    ensures Dispatch(TestEndpointConfiguration, GetRequest("/test/one", []))
         == Exchange(JsonOk("part", JsonString("one")), [])
  {
    TestPartPath("/test/one", "one");
    ReadOperationWithSelector("/test/one", "one");
  }

  lemma ReadOperationWithSelectorContainingADot()
    ensures Dispatch(TestEndpointConfiguration, GetRequest("/test/foo.bar", []))
         == Exchange(JsonOk("part", JsonString("foo.bar")), [])
  {
    TestPartPath("/test/foo.bar", "foo.bar");
    ReadOperationWithSelector("/test/foo.bar", "foo.bar");
  }

  /** The "foo" and "bar" parameters receive the body's fields of those names, or null. */
  lemma WriteBindsBodyFields(body: Option<map<string, string>>)
    ensures Bind(Declare(TestWrite).parameters, [], BodyFields(body))
         == Success([BodyArgument(body, "foo"), BodyArgument(body, "bar")])
  {
    var params := Declare(TestWrite).parameters;
    var source := BodyFields(body);
    BodyFieldMaps(body, "foo");
    BodyFieldMaps(body, "bar");
    assert SuppliedValues(params, [], source, 0) == NamedValues(source, "foo");
    assert SuppliedValues(params, [], source, 1) == NamedValues(source, "bar");
    BindIsDetermined(params, [], source, [BodyArgument(body, "foo"), BodyArgument(body, "bar")]);
  }

  lemma WriteOutcome(foo: Argument, bar: Argument)
    ensures Outcome(Write, TestWrite, [foo, bar]) == Exchange(NoContent(), [WriteFooBar(foo, bar)])
  {
  }

  /**
   * POST /test with any JSON body, or none, invokes write with the "foo" and
   * "bar" fields, null for each that is missing: 204 with an empty body.
   */
  lemma WriteOperation(body: Option<map<string, string>>)
    ensures Dispatch(TestEndpointConfiguration, PostRequest("/test", body))
         == Exchange(NoContent(), [WriteFooBar(BodyArgument(body, "foo"), BodyArgument(body, "bar"))])
  {
    var foo, bar := BodyArgument(body, "foo"), BodyArgument(body, "bar");
    TestPath();
    WriteBindsBodyFields(body);
    TestEndpointsAreUnambiguous();
    WriteOutcome(foo, bar);
    ServedBy(TestEndpoint, PostRequest("/test", body), TestWrite, [], [foo, bar], Exchange(NoContent(), [WriteFooBar(foo, bar)]));
  }

  /** The arguments the test bodies give. */
  lemma BodyArguments()
    ensures BodyArgument(Some(map["foo" := "one", "bar" := "two"]), "foo") == StringValue("one")
    ensures BodyArgument(Some(map["foo" := "one", "bar" := "two"]), "bar") == StringValue("two")
    ensures BodyArgument(Some(map["foo" := "one"]), "foo") == StringValue("one")
    ensures BodyArgument(Some(map["foo" := "one"]), "bar") == Null
  {
  }

  lemma WriteOperationWithBothFields()
    ensures Dispatch(TestEndpointConfiguration, PostRequest("/test", Some(map["foo" := "one", "bar" := "two"])))
         == Exchange(NoContent(), [WriteFooBar(StringValue("one"), StringValue("two"))])
  {
    WriteOperation(Some(map["foo" := "one", "bar" := "two"]));
    BodyArguments();
  }

  lemma NullIsPassedToTheOperationWhenArgumentIsNotFoundInPostRequestBody()
    ensures Dispatch(TestEndpointConfiguration, PostRequest("/test", Some(map["foo" := "one"])))
         == Exchange(NoContent(), [WriteFooBar(StringValue("one"), Null)])
  {
    WriteOperation(Some(map["foo" := "one"]));
    BodyArguments();
  }

  lemma NullsArePassedToTheOperationWhenPostRequestHasNoBody()
    ensures Dispatch(TestEndpointConfiguration, PostRequest("/test", None))
         == Exchange(NoContent(), [WriteFooBar(Null, Null)])
  {
    WriteOperation(None);
  }

  /** TestEndpoint both reads and writes, so a preflight lists GET and POST. */
  lemma TestEndpointAllowsGetAndPost()
    ensures FindEndpoint(TestEndpointConfiguration, "test") == Some(TestEndpoint)
    ensures Join(AllowedMethods(TestEndpoint), ",") == "GET,POST"
  {
    assert HasKind(TestEndpoint, Read) by { assert TestReadAll in TestEndpoint.operations; }
    assert HasKind(TestEndpoint, Write) by { assert TestWrite in TestEndpoint.operations; }
    assert AllowedMethods(TestEndpoint) == ["GET", "POST"];
  }

  /** OPTIONS /test from an origin: 200, the origin echoed, GET and POST allowed. */
  lemma ResponseToOptionsRequestIncludesCorsHeaders(origin: string)
    ensures Dispatch(TestEndpointConfiguration, Request(Preflight(origin), "/test", [], None))
         == Exchange(Response(OK, None, [("Access-Control-Allow-Origin", origin),
                                         ("Access-Control-Allow-Methods", "GET,POST")], NoBody), [])
  {
    TestPath();
    TestEndpointAllowsGetAndPost();
    PreflightReportsAllowedMethods(TestEndpointConfiguration, Request(Preflight(origin), "/test", [], None), TestEndpoint);
  }

  // ---------------------------------------------------------------------------
  // QueryEndpoint and QueryWithListEndpoint

  /** The argument a String parameter receives from query values: null for none, else the values comma-joined. */
  function JoinedArgument(values: seq<string>): Argument
  {
    if values == [] then Null else StringValue(Join(values, ","))
  }

  lemma QueryBinds(query: seq<(string, string)>, two: int)
    requires |QueryValues(query, "two")| == 1 && ParseInteger(QueryValues(query, "two")[0]) == Some(two)
    ensures Bind(Declare(QueryRead).parameters, [], QueryParameters(query))
         == Success([JoinedArgument(QueryValues(query, "one")), IntegerValue(two)])
  {
    var params := Declare(QueryRead).parameters;
    var source := QueryParameters(query);
    var one := QueryValues(query, "one");
    assert SuppliedValues(params, [], source, 0) == one;
    assert SuppliedValues(params, [], source, 1) == QueryValues(query, "two");
    assert MapParameter(one, StringType) == Success(JoinedArgument(one));
    BindIsDetermined(params, [], source, [JoinedArgument(one), IntegerValue(two)]);
  }

  lemma QueryOutcome(one: Argument, two: int)
    requires INTEGER_MIN_VALUE <= two <= INTEGER_MAX_VALUE
    ensures Outcome(Read, QueryRead, [one, IntegerValue(two)])
         == Exchange(JsonOk("query", JsonString(Render(one) + " " + IntegerToString(two))), [])
  {
  }

  /**
   * GET /query invokes query(one, two): `one` receives the comma-joined
   * values of "one" (null when there are none) and `two` the Integer of the
   * single value of "two", whichever Integer text spells it.
   */
  lemma QueryOperation(query: seq<(string, string)>, two: int)
    requires |QueryValues(query, "two")| == 1 && ParseInteger(QueryValues(query, "two")[0]) == Some(two)
    ensures Dispatch(QueryEndpointConfiguration, GetRequest("/query", query))
         == Exchange(JsonOk("query", JsonString(
              Render(JoinedArgument(QueryValues(query, "one"))) + " " + IntegerToString(two))), [])
  {
    var one := JoinedArgument(QueryValues(query, "one"));
    QueryPath();
    QueryBinds(query, two);
    TestEndpointsAreUnambiguous();
    QueryOutcome(one, two);
    ServedBy(QueryEndpoint, GetRequest("/query", query), QueryRead, [], [one, IntegerValue(two)],
             Exchange(JsonOk("query", JsonString(Render(one) + " " + IntegerToString(two))), []));
  }

  /** The text of query(one, two) for one=1 and two=2. */
  lemma SingleOneText()
    ensures Render(JoinedArgument(["1"])) + " " + IntegerToString(2) == "1 2"
  {
    assert IntegerToString(2) == "2";
    assert Join(["1"], ",") == "1";
  }

  /** The text of query(one, two) for one=1&one=1 and two=2. */
  lemma RepeatedOneText()
    ensures Render(JoinedArgument(["1", "1"])) + " " + IntegerToString(2) == "1,1 2"
  {
    assert IntegerToString(2) == "2";
    assert Join(["1", "1"], ",") == "1,1";
  }

  lemma ReadOperationWithSingleQueryParameters()
    ensures Dispatch(QueryEndpointConfiguration, GetRequest("/query", [("one", "1"), ("two", "2")]))
         == Exchange(JsonOk("query", JsonString("1 2")), [])
  {
    SingleValues();
    IntegerRoundTrip(2);
    QueryOperation([("one", "1"), ("two", "2")], 2);
    SingleOneText();
  }

  lemma ReadOperationWithSingleQueryParametersAndMultipleValues()
    ensures Dispatch(QueryEndpointConfiguration, GetRequest("/query", [("one", "1"), ("one", "1"), ("two", "2")]))
         == Exchange(JsonOk("query", JsonString("1,1 2")), [])
  {
    RepeatedOneValues();
    IntegerRoundTrip(2);
    QueryOperation([("one", "1"), ("one", "1"), ("two", "2")], 2);
    RepeatedOneText();
  }

  /** The values of [one=1, two=2]. */
  lemma SingleValues()
    ensures QueryValues([("one", "1"), ("two", "2")], "one") == ["1"]
    ensures QueryValues([("one", "1"), ("two", "2")], "two") == ["2"] == [IntegerToString(2)]
  {
    assert QueryValues([("two", "2")], "one") == [];
    assert QueryValues([("two", "2")], "two") == ["2"];
  }

  /** The values of [one=1, one=1, two=2]. */
  lemma RepeatedOneValues()
    ensures QueryValues([("one", "1"), ("one", "1"), ("two", "2")], "one") == ["1", "1"]
    ensures QueryValues([("one", "1"), ("one", "1"), ("two", "2")], "two") == [IntegerToString(2)]
  {
    var query := [("one", "1"), ("one", "1"), ("two", "2")];
    assert query[1..] == [("one", "1"), ("two", "2")];
    SingleValues();
  }

  /** A value for `two` that is no Integer text fails to bind. */
  lemma QueryFailsToBind(query: seq<(string, string)>, value: string)
    requires QueryValues(query, "two") == [value] && ParseInteger(value).None?
    ensures Bind(Declare(QueryRead).parameters, [], QueryParameters(query)).Failure?
  {
    var params := Declare(QueryRead).parameters;
    assert SuppliedValues(params, [], QueryParameters(query), 1) == [value];
    assert MapParameter([value], IntegerType).Failure?;
  }

  /** A present value for `two` that is no Integer text is answered 400, and query is not invoked. */
  lemma ReadOperationWithMappingFailure(query: seq<(string, string)>, value: string)
    requires QueryValues(query, "two") == [value] && ParseInteger(value).None?
    ensures Dispatch(QueryEndpointConfiguration, GetRequest("/query", query))
         == Exchange(Response(BAD_REQUEST, None, [], NoBody), [])
  {
    QueryPath();
    QueryFailsToBind(query, value);
    TestEndpointsAreUnambiguous();
    ResolveIsUnique(QueryEndpointConfiguration, Read, ["query"], QueryRead);
    MappingFailureIsBadRequest(QueryEndpointConfiguration, GetRequest("/query", query), QueryRead);
  }

  lemma ReadOperationWithMappingFailureProducesBadRequestResponse()
    ensures Dispatch(QueryEndpointConfiguration, GetRequest("/query", [("two", "two")]))
         == Exchange(Response(BAD_REQUEST, None, [], NoBody), [])
  {
    NonNumericIsRejected("two", 0);
    ReadOperationWithMappingFailure([("two", "two")], "two");
  }

  lemma QueryWithListBinds(query: seq<(string, string)>, one: string)
    requires QueryValues(query, "one") == [one] && QueryValues(query, "two") != []
    ensures Bind(Declare(QueryWithListRead).parameters, [], QueryParameters(query))
         == Success([StringValue(one), ListValue(QueryValues(query, "two"))])
  {
    var params := Declare(QueryWithListRead).parameters;
    var source := QueryParameters(query);
    var two := QueryValues(query, "two");
    assert SuppliedValues(params, [], source, 0) == [one];
    assert SuppliedValues(params, [], source, 1) == two;
    assert MapParameter([one], StringType) == Success(StringValue(one));
    BindIsDetermined(params, [], source, [StringValue(one), ListValue(two)]);
  }

  lemma QueryWithListOutcome(one: string, two: seq<string>)
    ensures Outcome(Read, QueryWithListRead, [StringValue(one), ListValue(two)])
         == Exchange(JsonOk("query", JsonString(one + " " + Render(ListValue(two)))), [])
  {
  }

  /** GET /query on QueryWithListEndpoint: `two` receives every value of "two", in order. */
  lemma QueryWithListOperation(query: seq<(string, string)>, one: string)
    requires QueryValues(query, "one") == [one] && QueryValues(query, "two") != []
    ensures Dispatch(QueryWithListEndpointConfiguration, GetRequest("/query", query))
         == Exchange(JsonOk("query", JsonString(one + " " + Render(ListValue(QueryValues(query, "two"))))), [])
  {
    var two := QueryValues(query, "two");
    QueryPath();
    QueryWithListBinds(query, one);
    TestEndpointsAreUnambiguous();
    QueryWithListOutcome(one, two);
    ServedBy(QueryWithListEndpoint, GetRequest("/query", query), QueryWithListRead, [], [StringValue(one), ListValue(two)],
             Exchange(JsonOk("query", JsonString(one + " " + Render(ListValue(two)))), []));
  }

  /** The text of queryWithParameterList("1", two) for two=2. */
  lemma SingleListText()
    ensures "1" + " " + Render(ListValue(["2"])) == "1 [2]"
  {
    assert Join(["2"], ", ") == "2";
  }

  /** The text of queryWithParameterList("1", two) for two=2&two=2. */
  lemma RepeatedListText()
    ensures "1" + " " + Render(ListValue(["2", "2"])) == "1 [2, 2]"
  {
    assert Join(["2", "2"], ", ") == "2, 2";
  }

  lemma ReadOperationWithListQueryParameterAndSingleValue()
    ensures Dispatch(QueryWithListEndpointConfiguration, GetRequest("/query", [("one", "1"), ("two", "2")]))
         == Exchange(JsonOk("query", JsonString("1 [2]")), [])
  {
    SingleValues();
    QueryWithListOperation([("one", "1"), ("two", "2")], "1");
    SingleListText();
  }

  lemma ReadOperationWithListQueryParameterAndMultipleValues()
    ensures Dispatch(QueryWithListEndpointConfiguration, GetRequest("/query", [("one", "1"), ("two", "2"), ("two", "2")]))
         == Exchange(JsonOk("query", JsonString("1 [2, 2]")), [])
  {
    RepeatedTwoValues();
    QueryWithListOperation([("one", "1"), ("two", "2"), ("two", "2")], "1");
    RepeatedListText();
  }

  /** The values of [one=1, two=2, two=2]. */
  lemma RepeatedTwoValues()
    ensures QueryValues([("one", "1"), ("two", "2"), ("two", "2")], "one") == ["1"]
    ensures QueryValues([("one", "1"), ("two", "2"), ("two", "2")], "two") == ["2", "2"]
  {
    var query := [("one", "1"), ("two", "2"), ("two", "2")];
    assert query[1..] == [("two", "2"), ("two", "2")];
    assert query[1..][1..] == [("two", "2")];
    assert QueryValues([("two", "2")], "one") == [];
    assert QueryValues([("two", "2")], "two") == ["2"];
  }

  // ---------------------------------------------------------------------------
  // Void, null and resource results

  /**
   * On a configuration of one endpoint with a single operation and no
   * parameters, a request of that operation's kind on the endpoint's path is
   * answered with what the operation returns.
   */
  lemma ServedWithoutArguments(e: Endpoint, request: Request, t: Target, expected: Exchange)
    requires request.verb == Get || request.verb == Post
    requires e.operations == [t] && Declare(t).parameters == [] && Declare(t).kind == RequestedKind(request)
    requires PathSegments(request.path) == [e.id] + []
    requires Outcome(RequestedKind(request), t, []) == expected
    ensures Dispatch([e], request) == expected
  {
    assert Unambiguous(e);
    ServedBy(e, request, t, [], [], expected);
  }

  lemma VoidWriteOutcome() ensures Outcome(Write, VoidWrite, []) == Exchange(NoContent(), [WriteNoArguments]) { }
  lemma NullWriteOutcome() ensures Outcome(Write, NullWrite, []) == Exchange(NoContent(), [WriteNoArguments]) { }
  lemma NullReadOutcome() ensures Outcome(Read, NullRead, []) == Exchange(Response(NOT_FOUND, None, [], NoBody), []) { }
  lemma ResourceOutcome()
    ensures Outcome(Read, ResourceRead, [])
         == Exchange(Response(OK, Some(APPLICATION_OCTET_STREAM), [], BytesBody([0, 1, 2, 3, 4, 5, 6, 7, 8, 9])), [])
  {
  }

  lemma WriteOperationWithVoidResponse()
    ensures Dispatch(VoidWriteResponseEndpointConfiguration, PostRequest("/voidwrite", None))
         == Exchange(NoContent(), [WriteNoArguments])
  {
    VoidWritePath();
    VoidWriteOutcome();
    ServedWithoutArguments(VoidWriteResponseEndpoint, PostRequest("/voidwrite", None), VoidWrite,
                           Exchange(NoContent(), [WriteNoArguments]));
  }

  lemma NullResponseFromWriteOperationResultsInNoContentResponseStatus()
    ensures Dispatch(NullWriteResponseEndpointConfiguration, PostRequest("/nullwrite", None))
         == Exchange(NoContent(), [WriteNoArguments])
  {
    NullWritePath();
    NullWriteOutcome();
    ServedWithoutArguments(NullWriteResponseEndpoint, PostRequest("/nullwrite", None), NullWrite,
                           Exchange(NoContent(), [WriteNoArguments]));
  }

  lemma NullResponseFromReadOperationResultsInNotFoundResponseStatus()
    ensures Dispatch(NullReadResponseEndpointConfiguration, GetRequest("/nullread", []))
         == Exchange(Response(NOT_FOUND, None, [], NoBody), [])
  {
    NullReadPath();
    NullReadOutcome();
    ServedWithoutArguments(NullReadResponseEndpoint, GetRequest("/nullread", []), NullRead,
                           Exchange(Response(NOT_FOUND, None, [], NoBody), []));
  }

  lemma ReadOperationWithResourceResponse()
    ensures Dispatch(ResourceEndpointConfiguration, GetRequest("/resource", []))
         == Exchange(Response(OK, Some(APPLICATION_OCTET_STREAM), [], BytesBody([0, 1, 2, 3, 4, 5, 6, 7, 8, 9])), [])
  {
    ResourcePath();
    ResourceOutcome();
    ServedWithoutArguments(ResourceEndpoint, GetRequest("/resource", []), ResourceRead,
                           Exchange(Response(OK, Some(APPLICATION_OCTET_STREAM), [], BytesBody([0, 1, 2, 3, 4, 5, 6, 7, 8, 9])), []));
  }
}

=== FILE: operations.dfy ===
/**
 * What an endpoint operation declares and what its invocation produces:
 * parameters with a name, a declared type and a selector flag; the argument
 * values passed in; the value returned; and the calls made on the mocked
 * EndpointDelegate, recorded instead of performed.
 */
module Operations {

  import opened Common
  import opened Text

  /** The parameter types the endpoints declare: String, Integer and List<String>. */
  datatype ParameterType = StringType | IntegerType | StringListType

  /** A `@Selector` parameter is bound from a path segment, the others by name. */
  datatype Parameter = Parameter(name: string, ty: ParameterType, selector: bool)

  /** `@ReadOperation` (served on GET) or `@WriteOperation` (served on POST). */
  datatype OperationKind = Read | Write

  /** An argument value; `Null` is Java's null. */
  datatype Argument =
    | Null
    | StringValue(s: string)
    | IntegerValue(i: int)
    | ListValue(items: seq<string>)

  /** An argument fits a parameter when it is null or of the declared type. */
  predicate Conforms(a: Argument, ty: ParameterType)
  {
    match a
    case Null => true
    case StringValue(_) => ty == StringType
    case IntegerValue(i) => ty == IntegerType && INTEGER_MIN_VALUE <= i <= INTEGER_MAX_VALUE
    case ListValue(_) => ty == StringListType
  }

  /**
   * String.valueOf, as string concatenation applies it: "null" for null,
   * Integer.toString, and List.toString's "[a, b]".
   */
  function Render(a: Argument): (r: string)
    ensures a.Null? ==> r == "null"
    ensures a.StringValue? ==> r == a.s
    ensures a.IntegerValue? && Conforms(a, IntegerType) ==> ParseInteger(r) == Some(a.i)
    ensures a.ListValue? ==> |r| >= 2 && r[0] == '[' && r[|r| - 1] == ']'
    ensures a.ListValue? && |a.items| == 0 ==> r == "[]"
    // between the brackets, the items in order, each after the first preceded by ", "
    ensures a.ListValue? && |a.items| > 0 && (forall k :: 0 <= k < |a.items| ==> ',' !in a.items[k]) ==>
      Split(r[1..|r| - 1], ',') == [a.items[0]] + Spaced(a.items[1..])
  {
    match a
    case Null => "null"
    case StringValue(s) => s
    case IntegerValue(i) =>
      if INTEGER_MIN_VALUE <= i <= INTEGER_MAX_VALUE then IntegerRoundTrip(i); IntegerToString(i)
      else IntegerToString(i)
    case ListValue(items) =>
      var r := "[" + Join(items, ", ") + "]";
      assert r[1..|r| - 1] == Join(items, ", ");
      if |items| > 0 && (forall k :: 0 <= k < |items| ==> ',' !in items[k]) then
        ListItemsSplitBack(items); r
      else r
  }

  /** The ", "-joined items of a list cut at every ',' are the items, each after the first with its blank. */
  lemma ListItemsSplitBack(items: seq<string>)
    requires |items| > 0 && forall k :: 0 <= k < |items| ==> ',' !in items[k]
    ensures Split(Join(items, ", "), ',') == [items[0]] + Spaced(items[1..])
  {
    JoinCommaSpace(items);
    var parts := [items[0]] + Spaced(items[1..]);
    assert forall k :: 0 <= k < |parts| ==> ',' !in parts[k] by {
      forall k | 0 <= k < |parts| ensures ',' !in parts[k] {
        if k > 0 {
          assert parts[k] == " " + items[k];
        }
      }
    }
    SplitJoin(parts, ',');
  }

  /** The JSON values the endpoints put in their singleton maps. */
  datatype JsonValue = JsonBool(b: bool) | JsonString(s: string)

  /** What an operation method returns. */
  datatype ReturnValue =
    | Void
    | NullValue
    | SingletonMap(key: string, value: JsonValue)
    | ByteArrayResource(bytes: seq<int>)

  /** The EndpointDelegate methods: write() and write(String foo, String bar). */
  datatype DelegateCall = WriteNoArguments | WriteFooBar(foo: Argument, bar: Argument)

  /** The value an invocation returns and the delegate calls it made, in order. */
  datatype Invocation = Invocation(result: ReturnValue, calls: seq<DelegateCall>)

  /** The number of `@Selector` parameters. */
  function SelectorCount(parameters: seq<Parameter>): (n: nat)
    ensures n <= |parameters|
  {
    if |parameters| == 0 then 0
    else (if parameters[0].selector then 1 else 0) + SelectorCount(parameters[1..])
  }

  lemma {:induction false} SelectorCountAppend(a: seq<Parameter>, b: seq<Parameter>)
    ensures SelectorCount(a + b) == SelectorCount(a) + SelectorCount(b)
    decreases |a|
  {
    if |a| > 0 {
      assert (a + b)[1..] == a[1..] + b;
      SelectorCountAppend(a[1..], b);
    } else {
      assert a + b == b;
    }
  }

  /** The selectors before position i, plus the one at i if any, are among all selectors. */
  lemma SelectorCountPrefix(parameters: seq<Parameter>, i: nat)
    requires i < |parameters|
    ensures SelectorCount(parameters[..i]) + (if parameters[i].selector then 1 else 0)
         <= SelectorCount(parameters)
  {
    assert parameters == parameters[..i] + ([parameters[i]] + parameters[i + 1..]);
    SelectorCountAppend(parameters[..i], [parameters[i]] + parameters[i + 1..]);
    SelectorCountAppend([parameters[i]], parameters[i + 1..]);
    assert ([parameters[i]] + parameters[i + 1..])[1..] == parameters[i + 1..];
  }
}

=== FILE: parameter_mapper.dfy ===
/**
 * The operation parameter mapper: turns the raw string values a request
 * supplies for one parameter into an argument of the parameter's declared
 * type. Several values for a scalar parameter are comma-joined first; a
 * List<String> parameter receives them all; no value at all is null.
 */
module ParameterMapper {

  import opened Common
  import opened Text
  import opened Operations

  /** A present value that does not convert to the declared type. */
  datatype MappingFailure = MappingFailure(value: string, target: ParameterType)

  function MapParameter(values: seq<string>, ty: ParameterType): (r: Result<Argument, MappingFailure>)
    ensures r == Success(Null) <==> |values| == 0
    ensures r.Success? ==> Conforms(r.value, ty)
    ensures r.Failure? ==> ty == IntegerType && |values| > 0
    // a List<String> parameter receives every supplied value, in order
    ensures ty == StringListType && |values| > 0 ==> r == Success(ListValue(values))
    // a String parameter receives the values comma-joined in one string ...
    ensures ty == StringType && |values| > 0 ==> r == Success(StringValue(Join(values, ",")))
    // ... which splits back into them when none of them holds a comma
    ensures ty == StringType && |values| > 0 && (forall k :: 0 <= k < |values| ==> ',' !in values[k]) ==>
      Split(r.value.s, ',') == values
    // one Integer value converts exactly when it is Integer text; joined values never do
    ensures ty == IntegerType && |values| == 1 ==>
      (r.Success? <==> ParseInteger(values[0]).Some?) &&
      (r.Success? ==> r.value == IntegerValue(ParseInteger(values[0]).value))
    ensures ty == IntegerType && |values| >= 2 ==> r.Failure?
  {
    if |values| == 0 then Success(Null)
    else
      var joined := Join(values, ",");
      match ty
      case StringType =>
        JoinedValuesSplitBack(values);
        Success(StringValue(joined))
      case StringListType => Success(ListValue(values))
      case IntegerType =>
        JoinedValuesAreNoInteger(values);
        match ParseInteger(joined)
        case Some(i) => Success(IntegerValue(i))
        case None => Failure(MappingFailure(joined, ty))
  }

  lemma JoinedValuesSplitBack(values: seq<string>)
    requires |values| > 0
    ensures (forall k :: 0 <= k < |values| ==> ',' !in values[k]) ==> Split(Join(values, ","), ',') == values
  {
    if forall k :: 0 <= k < |values| ==> ',' !in values[k] {
      SplitJoin(values, ',');
    }
  }

  /** The comma that joins two values is no digit, so the joined text is no Integer. */
  lemma JoinedValuesAreNoInteger(values: seq<string>)
    ensures |values| >= 2 ==> ParseInteger(Join(values, ",")) == None
  {
    if |values| >= 2 {
      JoinedHasSeparator(values, ",");
      NonNumericIsRejected(Join(values, ","), |values[0]|);
    }
  }

  /** With two or more parts, the separator follows the first part. */
  lemma JoinedHasSeparator(parts: seq<string>, sep: string)
    requires |parts| >= 2 && |sep| >= 1
    ensures |parts[0]| < |Join(parts, sep)| && Join(parts, sep)[|parts[0]|] == sep[0]
  {
  }
}

=== FILE: test_endpoints.dfy ===
/**
 * The endpoints the web-endpoint integration tests declare, as explicit
 * operation descriptors (what the annotations say) and an invocation function
 * (what each operation method computes). Each test configuration registers
 * one endpoint.
 */
module TestEndpoints {

  import opened Operations

  /** The operation methods, one constructor per Java method. */
  datatype Target =
    | TestReadAll             // TestEndpoint.readAll()
    | TestReadPart            // TestEndpoint.readPart(@Selector String part)
    | TestWrite               // TestEndpoint.write(String foo, String bar)
    | QueryRead               // QueryEndpoint.query(String one, Integer two)
    | QueryReadWithSelector   // QueryEndpoint.queryWithParameterList(@Selector String list, String one, List<String> two)
    | QueryWithListRead       // QueryWithListEndpoint.queryWithParameterList(String one, List<String> two)
    | VoidWrite               // VoidWriteResponseEndpoint.write()
    | NullWrite               // NullWriteResponseEndpoint.write()
    | NullRead                // NullReadResponseEndpoint.readReturningNull()
    | ResourceRead            // ResourceEndpoint.read()

  /** An operation descriptor: its kind, its parameters in declaration order, and its method. */
  datatype Operation = Operation(kind: OperationKind, parameters: seq<Parameter>, target: Target)

  /** An endpoint: its id and its operation methods, each described by Declare. */
  datatype Endpoint = Endpoint(id: string, operations: seq<Target>)

  /** The descriptor the `@ReadOperation`, `@WriteOperation` and `@Selector` annotations give a method. */
  function Declare(t: Target): (op: Operation)
    ensures op.target == t
    ensures op.kind == Write <==> t in {TestWrite, VoidWrite, NullWrite}
    // readPart and the three-argument query take one path selector, the rest none
    ensures SelectorCount(op.parameters) == if t in {TestReadPart, QueryReadWithSelector} then 1 else 0
  {
    match t
    case TestReadAll => Operation(Read, [], t)
    case TestReadPart => Operation(Read, [Parameter("part", StringType, true)], t)
    case TestWrite =>
      Operation(Write, [Parameter("foo", StringType, false), Parameter("bar", StringType, false)], t)
    case QueryRead =>
      Operation(Read, [Parameter("one", StringType, false), Parameter("two", IntegerType, false)], t)
    case QueryReadWithSelector =>
      Operation(Read, [Parameter("list", StringType, true), Parameter("one", StringType, false),
                       Parameter("two", StringListType, false)], t)
    case QueryWithListRead =>
      Operation(Read, [Parameter("one", StringType, false), Parameter("two", StringListType, false)], t)
    case VoidWrite => Operation(Write, [], t)
    case NullWrite => Operation(Write, [], t)
    case NullRead => Operation(Read, [], t)
    case ResourceRead => Operation(Read, [], t)
  }

  /** The bytes of the ByteArrayResource that ResourceEndpoint.read returns. */
  const RESOURCE_BYTES: seq<int> := [0, 1, 2, 3, 4, 5, 6, 7, 8, 9]

  /**
   * Calling the operation method with its arguments, in declaration order.
   * Read methods make no delegate call; each write method makes exactly one.
   */
  function Invoke(t: Target, args: seq<Argument>): (inv: Invocation)
    requires |args| == |Declare(t).parameters|
    ensures Declare(t).kind == Read ==> inv.calls == []
    ensures Declare(t).kind == Write ==> |inv.calls| == 1
    ensures t == TestWrite ==> inv.calls == [WriteFooBar(args[0], args[1])]
  {
    match t
    case TestReadAll => Invocation(SingletonMap("All", JsonBool(true)), [])
    case TestReadPart => Invocation(SingletonMap("part", JsonString(Render(args[0]))), [])
    case TestWrite => Invocation(Void, [WriteFooBar(args[0], args[1])])
    case QueryRead =>
      Invocation(SingletonMap("query", JsonString(Render(args[0]) + " " + Render(args[1]))), [])
    case QueryReadWithSelector =>
      Invocation(SingletonMap("query",
        JsonString(Render(args[0]) + " " + Render(args[1]) + " " + Render(args[2]))), [])
    case QueryWithListRead =>
      Invocation(SingletonMap("query", JsonString(Render(args[0]) + " " + Render(args[1]))), [])
    case VoidWrite => Invocation(Void, [WriteNoArguments])
    case NullWrite => Invocation(NullValue, [WriteNoArguments])
    case NullRead => Invocation(NullValue, [])
    case ResourceRead => Invocation(ByteArrayResource(RESOURCE_BYTES), [])
  }

  const TestEndpoint: Endpoint :=
    Endpoint("test", [TestReadAll, TestReadPart, TestWrite])
  const QueryEndpoint: Endpoint :=
    Endpoint("query", [QueryRead, QueryReadWithSelector])
  const QueryWithListEndpoint: Endpoint := Endpoint("query", [QueryWithListRead])
  const VoidWriteResponseEndpoint: Endpoint := Endpoint("voidwrite", [VoidWrite])
  const NullWriteResponseEndpoint: Endpoint := Endpoint("nullwrite", [NullWrite])
  const NullReadResponseEndpoint: Endpoint := Endpoint("nullread", [NullRead])
  const ResourceEndpoint: Endpoint := Endpoint("resource", [ResourceRead])

  /** The endpoints of one test configuration: each configuration registers one. */
  const TestEndpointConfiguration: seq<Endpoint> := [TestEndpoint]
  const QueryEndpointConfiguration: seq<Endpoint> := [QueryEndpoint]
  const QueryWithListEndpointConfiguration: seq<Endpoint> := [QueryWithListEndpoint]
  const VoidWriteResponseEndpointConfiguration: seq<Endpoint> := [VoidWriteResponseEndpoint]
  const NullWriteResponseEndpointConfiguration: seq<Endpoint> := [NullWriteResponseEndpoint]
  const NullReadResponseEndpointConfiguration: seq<Endpoint> := [NullReadResponseEndpoint]
  const ResourceEndpointConfiguration: seq<Endpoint> := [ResourceEndpoint]

  /** No two operations of the endpoint share a kind and a selector count, so routing is unambiguous. */
  predicate Unambiguous(e: Endpoint)
  {
    forall i, j :: 0 <= i < j < |e.operations| ==>
      Declare(e.operations[i]).kind != Declare(e.operations[j]).kind ||
      SelectorCount(Declare(e.operations[i]).parameters) != SelectorCount(Declare(e.operations[j]).parameters)
  }

  /** Every endpoint the tests declare routes unambiguously: the read operations differ in selector count. */
  lemma TestEndpointsAreUnambiguous()
    ensures Unambiguous(TestEndpoint) && Unambiguous(QueryEndpoint) && Unambiguous(QueryWithListEndpoint)
    ensures Unambiguous(VoidWriteResponseEndpoint) && Unambiguous(NullWriteResponseEndpoint)
    ensures Unambiguous(NullReadResponseEndpoint) && Unambiguous(ResourceEndpoint)
  {
  }
}

=== FILE: text.dfy ===
/**
 * String helpers the endpoint contract rests on: joining and splitting on a
 * separator (URL paths, comma-joined values, Java's List.toString), and the
 * decimal Integer syntax of Java's Integer.valueOf with its printing
 * counterpart Integer.toString.
 */
module Text {

  import opened Common

  /** parts[0] + sep + parts[1] + ... + sep + parts[n-1]; "" for no parts. */
  function Join(parts: seq<string>, sep: string): (s: string)
    ensures |parts| == 1 ==> s == parts[0]
  {
    if |parts| == 0 then ""
    else if |parts| == 1 then parts[0]
    else parts[0] + sep + Join(parts[1..], sep)
  }

  /** The pieces of s between occurrences of sep; never empty, as in String.split with limit -1. */
  function Split(s: string, sep: char): (parts: seq<string>)
    ensures |parts| >= 1
    ensures forall i :: 0 <= i < |parts| ==> sep !in parts[i]
    decreases |s|
  {
    if |s| == 0 then [""]
    else
      var rest := Split(s[1..], sep);
      if s[0] == sep then [""] + rest
      else [[s[0]] + rest[0]] + rest[1..]
  }

  /** Joining what Split cut restores the string. */
  lemma {:induction false} JoinSplit(s: string, sep: char)
    ensures Join(Split(s, sep), [sep]) == s
    decreases |s|
  {
    if |s| > 0 {
      var rest := Split(s[1..], sep);
      JoinSplit(s[1..], sep);
      if s[0] == sep {
        assert Split(s, sep) == [""] + rest;
        assert s == [sep] + s[1..];
      } else {
        JoinConsFirst([s[0]], rest, [sep]);
        assert s == [s[0]] + s[1..];
      }
    }
  }

  /** Prefixing the first part prefixes the joined string. */
  lemma JoinConsFirst(x: string, parts: seq<string>, sep: string)
    requires |parts| >= 1
    ensures Join([x + parts[0]] + parts[1..], sep) == x + Join(parts, sep)
  {
    if |parts| > 1 {
      assert ([x + parts[0]] + parts[1..])[1..] == parts[1..];
    }
  }

  /** A string without the separator is one piece. */
  lemma {:induction false} SplitWithoutSeparator(s: string, sep: char)
    requires sep !in s
    ensures Split(s, sep) == [s]
    decreases |s|
  {
    if |s| > 0 {
      assert sep !in s[1..];
      SplitWithoutSeparator(s[1..], sep);
      assert [s[0]] + s[1..] == s;
    }
  }

  /** Splitting stops at the first separator: a separator-free prefix is the first piece. */
  lemma {:induction false} SplitAtSeparator(a: string, b: string, sep: char)
    requires sep !in a
    ensures Split(a + [sep] + b, sep) == [a] + Split(b, sep)
    decreases |a|
  {
    if |a| == 0 {
      assert a + [sep] + b == [sep] + b;
      assert ([sep] + b)[1..] == b;
    } else {
      var s := a + [sep] + b;
      assert s[1..] == a[1..] + [sep] + b;
      assert sep !in a[1..];
      SplitAtSeparator(a[1..], b, sep);
      assert [a[0]] + a[1..] == a;
    }
  }

  /** Splitting what Join glued restores the pieces, when no piece holds the separator. */
  lemma {:induction false} SplitJoin(parts: seq<string>, sep: char)
    requires |parts| >= 1
    requires forall i :: 0 <= i < |parts| ==> sep !in parts[i]
    ensures Split(Join(parts, [sep]), sep) == parts
    decreases |parts|
  {
    if |parts| == 1 {
      SplitWithoutSeparator(parts[0], sep);
    } else {
      SplitJoin(parts[1..], sep);
      SplitAtSeparator(parts[0], Join(parts[1..], [sep]), sep);
      assert [parts[0]] + parts[1..] == parts;
    }
  }

  /** Every part with a blank in front of it. */
  function Spaced(parts: seq<string>): (r: seq<string>)
    ensures |r| == |parts|
    ensures forall k :: 0 <= k < |parts| ==> r[k] == " " + parts[k]
  {
    if |parts| == 0 then [] else [" " + parts[0]] + Spaced(parts[1..])
  }

  /** Joining with ", " is joining with "," once every part but the first has a blank in front. */
  lemma {:induction false} JoinCommaSpace(parts: seq<string>)
    requires |parts| >= 1
    ensures Join(parts, ", ") == Join([parts[0]] + Spaced(parts[1..]), ",")
    decreases |parts|
  {
    if |parts| >= 2 {
      var rest := [parts[1]] + Spaced(parts[2..]);
      JoinCommaSpace(parts[1..]);
      assert parts[1..][1..] == parts[2..];
      assert Spaced(parts[1..]) == [" " + parts[1]] + Spaced(parts[2..]);
      JoinConsFirst(" ", rest, ",");
      assert [" " + rest[0]] + rest[1..] == Spaced(parts[1..]);
      assert ([parts[0]] + Spaced(parts[1..]))[1..] == Spaced(parts[1..]);
    } else {
      assert [parts[0]] + Spaced(parts[1..]) == [parts[0]];
    }
  }

  // ---------------------------------------------------------------------------
  // Java Integer

  const INTEGER_MIN_VALUE: int := -0x8000_0000
  const INTEGER_MAX_VALUE: int := 0x7fff_ffff

  predicate IsDigit(c: char) { '0' <= c <= '9' }

  predicate AllDigits(s: string) { forall i :: 0 <= i < |s| ==> IsDigit(s[i]) }

  /** The value of a run of decimal digits, most significant first. */
  function DigitsValue(s: string): (n: nat)
    requires AllDigits(s)
    decreases |s|
  {
    if |s| == 0 then 0
    else DigitsValue(s[..|s| - 1]) * 10 + (s[|s| - 1] as int - '0' as int)
  }

  /**
   * Integer.valueOf on decimal text: an optional '-' or '+', then at least one
   * digit, with a value in the 32-bit range; anything else is a
   * NumberFormatException, modelled as None.
   */
  function ParseInteger(s: string): (r: Option<int>)
    ensures r.Some? ==> INTEGER_MIN_VALUE <= r.value <= INTEGER_MAX_VALUE
  {
    var negative := |s| > 0 && s[0] == '-';
    var digits := if |s| > 0 && (s[0] == '-' || s[0] == '+') then s[1..] else s;
    if |digits| == 0 || !AllDigits(digits) then None
    else
      var v: int := if negative then -(DigitsValue(digits) as int) else DigitsValue(digits);
      if INTEGER_MIN_VALUE <= v <= INTEGER_MAX_VALUE then Some(v) else None
  }

  /** A character that is neither a digit nor a leading sign makes the text no Integer. */
  lemma NonNumericIsRejected(s: string, i: nat)
    requires i < |s| && !IsDigit(s[i])
    requires i > 0 || (s[0] != '-' && s[0] != '+')
    ensures ParseInteger(s) == None
  {
    if |s| > 0 && (s[0] == '-' || s[0] == '+') {
      assert s[1..][i - 1] == s[i];
    }
  }

  function DigitChar(d: nat): (c: char)
    requires d < 10
    ensures IsDigit(c) && c as int - '0' as int == d
  {
    ('0' as int + d) as char
  }

  /** Decimal digits of n, without leading zeros. */
  function NaturalToString(n: nat): (s: string)
    ensures |s| >= 1 && AllDigits(s)
  {
    if n < 10 then [DigitChar(n)]
    else NaturalToString(n / 10) + [DigitChar(n % 10)]
  }

  /** Integer.toString: a '-' before the digits of a negative value. */
  function IntegerToString(i: int): (s: string)
    ensures |s| >= 1
  {
    if i < 0 then "-" + NaturalToString(-i) else NaturalToString(i)
  }

  lemma {:induction false} DigitsOfNatural(n: nat)
    ensures DigitsValue(NaturalToString(n)) == n
  {
    var s := NaturalToString(n);
    if n >= 10 {
      DigitsOfNatural(n / 10);
      assert s[..|s| - 1] == NaturalToString(n / 10);
    }
  }

  /** Digits without a sign parse to their value, when it is in range. */
  lemma {:induction false} ParseUnsigned(s: string)
    requires |s| >= 1 && AllDigits(s) && DigitsValue(s) <= INTEGER_MAX_VALUE
    ensures ParseInteger(s) == Some(DigitsValue(s))
  {
    assert IsDigit(s[0]);
  }

  /** '-' followed by digits parses to the negated value, when it is in range. */
  lemma {:induction false} ParseNegative(s: string)
    requires |s| >= 1 && AllDigits(s) && DigitsValue(s) <= -INTEGER_MIN_VALUE
    ensures ParseInteger("-" + s) == Some(-(DigitsValue(s) as int))
  {
    assert ("-" + s)[0] == '-';
    assert ("-" + s)[1..] == s;
  }

  /** Printing an Integer and parsing it back gives the same Integer. */
  lemma {:induction false} IntegerRoundTrip(i: int)
    requires INTEGER_MIN_VALUE <= i <= INTEGER_MAX_VALUE
    ensures ParseInteger(IntegerToString(i)) == Some(i)
  {
    if i < 0 {
      DigitsOfNatural(-i);
      ParseNegative(NaturalToString(-i));
    } else {
      DigitsOfNatural(i);
      ParseUnsigned(NaturalToString(i));
    }
  }
}
